=== FILE: README.md ===
# Loan EMI autopay over AP2: a Dafny model

The AP2 payment server of this repository lets an agent set up loan repayments
under the Agent Payments Protocol (AP2). It has three parts:

- **The amortization engine** (`LoanEmiService`). It checks the loan terms and
  computes the level monthly installment (the EMI) with the annuity formula.
  It then walks the installments month by month, dating each one by
  calendar-month arithmetic on the disbursement date, and totals the rounded
  schedule.
- **The mandate assembler** (`Ap2MandateService`). It turns a plan and its
  mandate context into three cross-referenced AP2 mandates: intent, cart and
  payment. When a transport endpoint is configured, it posts them and merges
  the acknowledgement into a submission receipt.
- **The EMI-due tool** (`pay_ap2_loan_emi_due`). It asks a mock loan ledger
  for the account's next installment. It then builds a one-installment plan
  from that record, assembles the mandates and, when configured, submits them.

The shared prompt loader renders `{{name}}` templates and prints tool
arguments as `key: value` lists; it is modelled too.

The model is a set of pure functions over immutable datatypes:

- Money is an exact `real`.
- The two roundings the code uses are written out: `Number(x.toFixed(2))` is
  `Money.Round2`, the nearest cent with ties away from zero, and `Math.round`
  is `Money.RoundHalfUp`.
- Dates are proleptic Gregorian `Calendar.Date` values. Adding months first
  rebuilds the UTC midnight as `Date.UTC` does: years 0 to 99 become 1900 to
  1999, and 29 February of year 0 becomes 1 March 1900. The month then moves
  as `setUTCMonth` moves it, following ECMA-262's `MakeDay`, with overflow
  into the next month included.
- Everything the code takes from outside is a parameter: parsing a date string
  (`DateParser`), the clock, random identifiers, environment settings
  (`TransportConfig`) and the remote endpoint.
- The mutable ledger is a `map` that each operation takes and returns.

Modules, one per source file or concept:

| module | file | models |
|---|---|---|
| `Wrappers` | `wrappers.dfy` | `Option`, `Result` |
| `Digits` | `digits.dfy` | decimal digit strings (helpers for `toFixed`) |
| `Money` | `money.dfy` | rounding to cents, `toFixed(2)` text and its value |
| `Calendar` | `calendar.dfy` | day numbers, `MakeDay`, `addMonths`, ISO date text |
| `LoanPaymentTypes` | `loan_payment_types.dfy` | `LoanPaymentTypes.ts` |
| `LoanEmiService` | `loan_emi_service.dfy` | `generatePlan` and its helpers |
| `LoanEmiProperties` | `loan_emi_properties.dfy` | the exact installment walk |
| `LoanPlanProperties` | `loan_plan_properties.dfy` | the published, rounded plan |
| `Ap2Types` | `ap2_types.dfy` | `Ap2Types.ts` |
| `Ap2MandateService` | `ap2_mandate_service.dfy` | `createMandates`, `submitMandates` |
| `LoanAccounts` | `loan_accounts.dfy` | `LoanAccountService` |
| `PayLoanEmiDue` | `pay_loan_emi_due.dfy` | the `pay_ap2_loan_emi_due` tool's `execute` |
| `PromptLoader` | `prompt_loader.dfy` | `getPrompt`, `renderMessage`, `convertToKeyValueString` |

## Model

| member | source | states |
|---|---|---|
| Money.RoundHalfUp | typescript/mcp-servers/ap2-payment-mcp-server/src/payment/services/LoanAccountService.ts:36 | `Math.round` gives the integer in (x − 0.5, x + 0.5], so ties go up |
| Money.Round2 | typescript/mcp-servers/ap2-payment-mcp-server/src/payment/services/LoanEmiService.ts:83-85 | `roundCurrency` gives a whole number of cents within half a cent of its argument, and a non-negative result for a non-negative argument |
| Money.Round2OfCents | typescript/mcp-servers/ap2-payment-mcp-server/src/payment/services/LoanEmiService.ts:83-85 | rounding leaves a value already in whole cents unchanged |
| Money.Round2Idempotent | typescript/mcp-servers/ap2-payment-mcp-server/src/payment/services/LoanEmiService.ts:83-85 | rounding twice is rounding once |
| Money.Round2Monotone | typescript/mcp-servers/ap2-payment-mcp-server/src/payment/services/LoanEmiService.ts:83-85 | rounding preserves the order of amounts |
| Money.Round2IsNearestCent | typescript/mcp-servers/ap2-payment-mcp-server/src/payment/services/LoanEmiService.ts:83-85 | no whole number of cents is strictly nearer the argument than the rounded value |
| Money.CentsClosed | typescript/mcp-servers/ap2-payment-mcp-server/src/payment/services/LoanEmiService.ts:33-34 | sums and differences of whole-cent amounts are whole cents |
| Money.FixedTwoRoundTrip | typescript/mcp-servers/ap2-payment-mcp-server/src/payment/services/LoanEmiService.ts:84 | reading the `toFixed(2)` text back as a number gives exactly the nearest cent, for negative amounts too |
| Calendar.UtcMidnightFields | typescript/mcp-servers/ap2-payment-mcp-server/src/payment/services/LoanEmiService.ts:96 | `Date.UTC` puts the date in its full year (1900 + y for years 0..99), keeps a date that exists in that year, and changes nothing outside years 0..99 |
| Calendar.UtcMidnightIsMakeDay | typescript/mcp-servers/ap2-payment-mcp-server/src/payment/services/LoanEmiService.ts:96 | the rebuilt midnight is the day MakeDay gives for the full year, the month and the day, a missing 29 February included |
| Calendar.MoveMonths | typescript/mcp-servers/ap2-payment-mcp-server/src/payment/services/LoanEmiService.ts:97 | `setUTCMonth` keeps the day when the target month has it; otherwise it rolls over into the following month by the excess, never more than three days |
| Calendar.MoveMonthsIsMakeDay | typescript/mcp-servers/ap2-payment-mcp-server/src/payment/services/LoanEmiService.ts:97 | the moved date's day number is what MakeDay gives for the year, the shifted zero-based month and the day |
| Calendar.AddMonthsOutsideTwoDigitYears | typescript/mcp-servers/ap2-payment-mcp-server/src/payment/services/LoanEmiService.ts:95-99 | outside years 0..99 `addMonths` is `setUTCMonth` on the date itself |
| Calendar.AddMonthsIsMakeDay | typescript/mcp-servers/ap2-payment-mcp-server/src/payment/services/LoanEmiService.ts:95-99 | `addMonths` lands on the day MakeDay gives for the full year `Date.UTC` made, the shifted month and the rebuilt midnight's day |
| Calendar.AddMonthsUnique | typescript/mcp-servers/ap2-payment-mcp-server/src/payment/services/LoanEmiService.ts:95-99 | no other valid date has that day number, so MakeDay of the full year fixes the result |
| Calendar.AddMonthsKeepsExistingDay | typescript/mcp-servers/ap2-payment-mcp-server/src/payment/services/LoanEmiService.ts:95-99 | when the day exists in the full year's month and in the target month, the day is kept and the month moves on from the full year by exactly the months added |
| Calendar.AddMonthsIncreasing | typescript/mcp-servers/ap2-payment-mcp-server/src/payment/services/LoanEmiService.ts:95-99 | adding more months gives a strictly later date, overflow included |
| Calendar.AddMonthsOverflowExamples | typescript/mcp-servers/ap2-payment-mcp-server/src/payment/services/LoanEmiService.ts:97 | 31 January plus one month is 3 March (2 March in a leap year); 30 November 2024 plus three months is 2 March 2025 (example) |
| Calendar.TwoDigitYearExamples | typescript/mcp-servers/ap2-payment-mcp-server/src/payment/services/LoanEmiService.ts:96 | 31 January of year 50 plus one month is 3 March 1950, while year 100 stays year 100 (example) |
| Calendar.YearZeroLeapDayExamples | typescript/mcp-servers/ap2-payment-mcp-server/src/payment/services/LoanEmiService.ts:96-97 | 29 January of year 0 plus one month is 1 March 1900, and 29 February of year 0 plus one month is 1 April 1900 (example) |
| Calendar.DayNumberInjective | typescript/mcp-servers/ap2-payment-mcp-server/src/payment/services/LoanEmiService.ts:96 | two valid dates with the same day number are the same date |
| Calendar.IsoDateRoundTrip | typescript/mcp-servers/ap2-payment-mcp-server/src/payment/services/LoanEmiService.ts:74 | the `YYYY-MM-DD` text of a date with a four-digit year reads back as that date |
| Calendar.FormatIsoDateShape | typescript/mcp-servers/ap2-payment-mcp-server/src/payment/services/LoanEmiService.ts:74 | the ISO text ends in `-MM-DD` with fields that read back as the month and the day; it is ten characters long exactly when the year is 0..9999 |
| LoanPaymentTypes.GraceMonths | typescript/mcp-servers/ap2-payment-mcp-server/src/payment/services/LoanEmiService.ts:30 | an absent grace period counts as zero months, a present one as given |
| LoanEmiService.CalculateEmi | typescript/mcp-servers/ap2-payment-mcp-server/src/payment/services/LoanEmiService.ts:45-52 | at a zero rate the installment times the tenure is the principal; otherwise it solves the annuity equation; for a positive principal it exceeds the first month's interest |
| LoanEmiService.TakeStep | typescript/mcp-servers/ap2-payment-mcp-server/src/payment/services/LoanEmiService.ts:68-70 | one loop pass: no interest at a zero rate, the principal paid never exceeds the balance, and the new balance is non-negative and equals the balance minus the principal when both are non-negative |
| LoanEmiService.GenerateSchedule | typescript/mcp-servers/ap2-payment-mcp-server/src/payment/services/LoanEmiService.ts:54-81 | one entry per month of the tenure, numbered 1, 2, … in order |
| LoanEmiService.ScheduleDueDates | typescript/mcp-servers/ap2-payment-mcp-server/src/payment/services/LoanEmiService.ts:66-67 | entry i is due `addMonths(anchor, grace + i + 1)`, written as ISO text |
| LoanEmiService.ScheduleEntryAmounts | typescript/mcp-servers/ap2-payment-mcp-server/src/payment/services/LoanEmiService.ts:68-77 | an entry's balance, principal and interest are the exact walk's figures for that installment, each rounded to cents |
| LoanEmiService.GeneratePlan | typescript/mcp-servers/ap2-payment-mcp-server/src/payment/services/LoanEmiService.ts:7-43 | the three checks fail in source order with their own errors; an unreadable disbursement date fails; success exactly for valid terms and a readable date, with one entry per month numbered from 1 |
| LoanEmiService.PowAtLeastOne | typescript/mcp-servers/ap2-payment-mcp-server/src/payment/services/LoanEmiService.ts:49-50 | the growth factor is at least 1, and above 1 for a positive rate and tenure |
| LoanEmiProperties.StepBounds | typescript/mcp-servers/ap2-payment-mcp-server/src/payment/services/LoanEmiService.ts:68-70 | from a balance within [0, principal], a step pays a principal within [0, balance] and leaves a balance within [0, balance] |
| LoanEmiProperties.BalanceBounds | typescript/mcp-servers/ap2-payment-mcp-server/src/payment/services/LoanEmiService.ts:66-79 | through the walk the balance stays within [0, principal] and never rises |
| LoanEmiProperties.BalanceAntitone | typescript/mcp-servers/ap2-payment-mcp-server/src/payment/services/LoanEmiService.ts:66-79 | the balance after more installments is never larger |
| LoanEmiProperties.PrincipalTelescopes | typescript/mcp-servers/ap2-payment-mcp-server/src/payment/services/LoanEmiService.ts:66-79 | principal repaid so far plus the balance left is always the loan |
| LoanEmiProperties.ZeroRateSteps | typescript/mcp-servers/ap2-payment-mcp-server/src/payment/services/LoanEmiService.ts:46-47 | at a zero rate each installment is principal / tenure with no interest, and the last balance is exactly zero |
| LoanEmiProperties.AnnuityTakeStep | typescript/mcp-servers/ap2-payment-mcp-server/src/payment/services/LoanEmiService.ts:68-70 | a step from a balance on the closed-form annuity curve pays exactly the EMI and lands on the curve one month further |
| LoanEmiProperties.AnnuityBalanceWalk | typescript/mcp-servers/ap2-payment-mcp-server/src/payment/services/LoanEmiService.ts:66-79 | in exact arithmetic the walk follows the closed-form annuity balance and every installment pays exactly the EMI |
| LoanEmiProperties.AnnuityPaysOff | typescript/mcp-servers/ap2-payment-mcp-server/src/payment/services/LoanEmiService.ts:45-52 | after the last annuity installment the balance is exactly zero |
| LoanEmiProperties.ExactPayoff | typescript/mcp-servers/ap2-payment-mcp-server/src/payment/services/LoanEmiService.ts:45-79 | for any valid rate, every exact installment equals the EMI and the loan is repaid exactly after the tenure |
| LoanPlanProperties.EmiCoversInterest | typescript/mcp-servers/ap2-payment-mcp-server/src/payment/services/LoanEmiService.ts:16-22 | for valid terms the monthly rate is non-negative and the EMI exceeds the interest on the whole principal |
| LoanPlanProperties.PlanParts | typescript/mcp-servers/ap2-payment-mcp-server/src/payment/services/LoanEmiService.ts:33-42 | a successful plan holds the rounded EMI, the rounded schedule sum, that sum minus the principal rounded, the rounded principal and the schedule |
| LoanPlanProperties.PlanDueDate | typescript/mcp-servers/ap2-payment-mcp-server/src/payment/services/LoanEmiService.ts:67-74 | installment i + 1 is due grace + i + 1 months after the disbursement date, written as ISO text that reads back as that date |
| LoanPlanProperties.PlanIgnoresTimeOfDay | typescript/mcp-servers/ap2-payment-mcp-server/src/payment/services/LoanEmiService.ts:96 | the time of day of the disbursement date never affects the plan, only its calendar date |
| LoanPlanProperties.PlanDueDatesIncrease | typescript/mcp-servers/ap2-payment-mcp-server/src/payment/services/LoanEmiService.ts:67 | due dates strictly increase through the schedule |
| LoanPlanProperties.EntryAmounts | typescript/mcp-servers/ap2-payment-mcp-server/src/payment/services/LoanEmiService.ts:75-77 | each entry carries the exact step's interest, principal and balance, each rounded to cents |
| LoanPlanProperties.ScheduleBalanceNonIncreasing | typescript/mcp-servers/ap2-payment-mcp-server/src/payment/services/LoanEmiService.ts:70-77 | published balances never rise and stay between zero and the rounded principal |
| LoanPlanProperties.SchedulePrincipalWithinBalance | typescript/mcp-servers/ap2-payment-mcp-server/src/payment/services/LoanEmiService.ts:69-76 | each principal component is non-negative and no larger than the previously published balance |
| LoanPlanProperties.SchedulePaysOff | typescript/mcp-servers/ap2-payment-mcp-server/src/payment/services/LoanEmiService.ts:66-79 | the last published balance is zero |
| LoanPlanProperties.InstallmentsNearEmi | typescript/mcp-servers/ap2-payment-mcp-server/src/payment/services/LoanEmiService.ts:37 | each published installment is within a cent of the exact EMI, and the published EMI within half a cent |
| LoanPlanProperties.ZeroRateSchedule | typescript/mcp-servers/ap2-payment-mcp-server/src/payment/services/LoanEmiService.ts:46-47 | at a zero rate every entry is interest-free and repays the rounded share principal / tenure, which is also the published EMI |
| LoanPlanProperties.ScheduleTotalInCents | typescript/mcp-servers/ap2-payment-mcp-server/src/payment/services/LoanEmiService.ts:33 | a schedule whose entries are whole cents sums to whole cents |
| LoanPlanProperties.ScheduleInCents | typescript/mcp-servers/ap2-payment-mcp-server/src/payment/services/LoanEmiService.ts:75-77 | every component of every generated entry is a whole number of cents |
| LoanPlanProperties.PlanTotals | typescript/mcp-servers/ap2-payment-mcp-server/src/payment/services/LoanEmiService.ts:33-42 | the published total repayment is the sum of the schedule, and interest plus principal matches it to within a cent |
| LoanPlanProperties.PlanBalancedInCents | typescript/mcp-servers/ap2-payment-mcp-server/src/payment/services/LoanEmiService.ts:33-42 | with a principal in whole cents, total repayment equals interest plus principal exactly |
| LoanPlanProperties.BalancedWhenCents | typescript/mcp-servers/ap2-payment-mcp-server/src/payment/services/LoanEmiService.ts:34-40 | totals rounded from a whole-cent sum and principal balance exactly |
| LoanPlanProperties.TotalNearCount | typescript/mcp-servers/ap2-payment-mcp-server/src/payment/services/LoanEmiService.ts:33 | installments each within a tolerance of the EMI sum to within that tolerance per installment of count × EMI |
| LoanPlanProperties.TotalNearTenureTimesEmi | typescript/mcp-servers/ap2-payment-mcp-server/src/payment/services/LoanEmiService.ts:33 | the total repayment is tenure × EMI, up to a cent per installment |
| LoanPlanProperties.PrincipalsNearWalk | typescript/mcp-servers/ap2-payment-mcp-server/src/payment/services/LoanEmiService.ts:76 | rounded principal components sum to within half a cent per installment of what the exact walk repays |
| LoanPlanProperties.PrincipalsNearLoan | typescript/mcp-servers/ap2-payment-mcp-server/src/payment/services/LoanEmiService.ts:66-79 | the published principal components add up to the loan, up to half a cent per installment |
| Ap2MandateService.StripPrefix | typescript/mcp-servers/ap2-payment-mcp-server/src/payment/services/Ap2MandateService.ts:11-13 | removing an identifier's prefix gives the suffix it was built from, or nothing when the prefix is not there |
| Ap2MandateService.StripsOwnPrefix | typescript/mcp-servers/ap2-payment-mcp-server/src/payment/services/Ap2MandateService.ts:11-13 | a prefixed suffix strips back to that suffix |
| Ap2MandateService.WithIds | typescript/mcp-servers/ap2-payment-mcp-server/src/payment/services/Ap2MandateService.ts:11-13 | a bundle re-identified from a draw reads that draw back |
| Ap2MandateService.CreateMandates | typescript/mcp-servers/ap2-payment-mcp-server/src/payment/services/Ap2MandateService.ts:10-112 | fails exactly when the anchor date is unreadable, naming it. Otherwise the bundle is consistent (one currency, agreed terms, shared parties, and only the merchant has an endpoint while only the shopper may have a name), carries the issue time, the context's currency, the plan's figures, the context minus e-mail and phone, and the drawn identifiers. Its autopay day is the anchor's day of month (1..31), and it has no receipt |
| Ap2MandateService.Assemble | typescript/mcp-servers/ap2-payment-mcp-server/src/payment/services/Ap2MandateService.ts:20-111 | the literal the code returns: a consistent bundle with the plan's figures, the context's currency, the disclosed context, the issue time, the given autopay day and the drawn identifiers read back, and no receipt |
| Ap2MandateService.MandateIdsDistinct | typescript/mcp-servers/ap2-payment-mcp-server/src/payment/services/Ap2MandateService.ts:11-13 | the four identifiers of a bundle differ whatever suffixes were drawn (see also line 96) |
| Ap2MandateService.OnlyIdsDiffer | typescript/mcp-servers/ap2-payment-mcp-server/src/payment/services/Ap2MandateService.ts:10-112 | two runs with different random draws give the same bundle up to its identifiers |
| Ap2MandateService.DependsOnPlanTerms | typescript/mcp-servers/ap2-payment-mcp-server/src/payment/services/Ap2MandateService.ts:20-24 | the bundle depends on the plan only through its EMI, totals, principal and installment count |
| Ap2MandateService.ApiKey | typescript/mcp-servers/ap2-payment-mcp-server/src/payment/services/Ap2MandateService.ts:7 | the key is the Google key when that is truthy, else the AP2 key as it is; it is truthy exactly when either is |
| Ap2MandateService.Headers | typescript/mcp-servers/ap2-payment-mcp-server/src/payment/services/Ap2MandateService.ts:120-123 | the JSON content type comes first; an Authorization header is present exactly when the key is truthy, and then it is `Bearer <key>` |
| Ap2MandateService.Request | typescript/mcp-servers/ap2-payment-mcp-server/src/payment/services/Ap2MandateService.ts:118-128 | the request uses the POST method and goes to the endpoint, with the JSON content type first; it carries an Authorization header exactly when either key is truthy, and posts the bundle's three mandates unchanged |
| Ap2MandateService.MergeReceipt | typescript/mcp-servers/ap2-payment-mcp-server/src/payment/services/Ap2MandateService.ts:137-145 | each receipt field comes from the acknowledgement and falls back (reference id, then id, then a fresh id; `QUEUED`; now; `http`) only when the field is missing |
| Ap2MandateService.Submit | typescript/mcp-servers/ap2-payment-mcp-server/src/payment/services/Ap2MandateService.ts:114-146 | with no endpoint the bundle comes back as it is. A non-2xx answer fails with its status and body. Success happens exactly on a 2xx JSON answer, with the merged receipt, and the mandates are never altered |
| Ap2MandateService.SubmitKeepsConsistent | typescript/mcp-servers/ap2-payment-mcp-server/src/payment/services/Ap2MandateService.ts:137-145 | submission keeps the bundle consistent and its figures and context unchanged |
| Ap2MandateService.RequestCarriesMandates | typescript/mcp-servers/ap2-payment-mcp-server/src/payment/services/Ap2MandateService.ts:124-128 | the posted body depends only on the three mandates, never on an earlier receipt |
| Ap2MandateService.ReceiptStatusUnchecked | typescript/mcp-servers/ap2-payment-mcp-server/src/payment/types/Ap2Types.ts:72-77 | the fallbacks are declared values, but an undeclared status or transport from the remote is copied unchecked (example) |
| LoanAccounts.UpperChar | typescript/mcp-servers/ap2-payment-mcp-server/src/payment/services/LoanAccountService.ts:9 | `toUpperCase` on one character: a letter `a`..`z` becomes the capital at the same place in `A`..`Z`, no result is a lower-case letter, and other characters are left alone |
| LoanAccounts.ToUpper | typescript/mcp-servers/ap2-payment-mcp-server/src/payment/services/LoanAccountService.ts:13 | upper-casing keeps the length and maps each character on its own |
| LoanAccounts.ToUpperIdempotent | typescript/mcp-servers/ap2-payment-mcp-server/src/payment/services/LoanAccountService.ts:13 | upper-casing twice is upper-casing once |
| LoanAccounts.ValidAccountIgnoresCase | typescript/mcp-servers/ap2-payment-mcp-server/src/payment/services/LoanAccountService.ts:3-10 | the account check cannot tell two spellings with the same upper case apart |
| LoanAccounts.LastSix | typescript/mcp-servers/ap2-payment-mcp-server/src/payment/services/LoanAccountService.ts:45 | `slice(-6)` is the last six characters, or the whole of a shorter text, and it is a suffix |
| LoanAccounts.Seed | typescript/mcp-servers/ap2-payment-mcp-server/src/payment/services/LoanAccountService.ts:33-56 | a seeded record for any account text: installment 1..12, a whole principal 500..699, interest 12 % of it in whole cents, late charges 15 exactly when the account ends in X, a total that is exactly the sum and whole cents, remaining principal 20 × principal, customer `CUST-` plus the last six characters, USD and DUE |
| LoanAccounts.SeedInterest | typescript/mcp-servers/ap2-payment-mcp-server/src/payment/services/LoanAccountService.ts:36 | the seeded interest is exactly 12 % of the principal |
| LoanAccounts.SeedFacts | typescript/mcp-servers/ap2-payment-mcp-server/src/payment/services/LoanAccountService.ts:33-56 | a seeded record has installment 1..12 and a whole principal 545..590. Interest is whole cents at 12 %. Late charges are 15 exactly when the account ends in X, else 0. The total is exactly the sum and whole cents, the remaining principal is 20 × principal, and the customer id is `CUST-` plus the last six characters. It is in USD and DUE |
| LoanAccounts.SeedPrincipalRange | typescript/mcp-servers/ap2-payment-mcp-server/src/payment/services/LoanAccountService.ts:35 | for an account matching the pattern, the seeded principal lies in 545..590 |
| LoanAccounts.SeedTotalExact | typescript/mcp-servers/ap2-payment-mcp-server/src/payment/services/LoanAccountService.ts:36-38 | the seeded interest and total are whole cents, and `Math.round` leaves the total equal to the exact sum |
| LoanAccounts.SeedIfAbsent | typescript/mcp-servers/ap2-payment-mcp-server/src/payment/services/LoanAccountService.ts:14-16 | the key is present afterwards, existing records are untouched, and a new key gets the seed |
| LoanAccounts.GetNextEmiDue | typescript/mcp-servers/ap2-payment-mcp-server/src/payment/services/LoanAccountService.ts:8-22 | an invalid account fails and leaves the store alone. A valid one seeds its upper-cased key if absent, and then succeeds exactly when the record is not PAID, returning it; otherwise it fails with no EMI due for that key |
| LoanAccounts.MarkInstallmentPaid | typescript/mcp-servers/ap2-payment-mcp-server/src/payment/services/LoanAccountService.ts:24-31 | the keys and every other record are unchanged; a stored record of the upper-cased account becomes PAID, and an unknown account changes nothing |
| LoanAccounts.UpperKeyValid | typescript/mcp-servers/ap2-payment-mcp-server/src/payment/services/LoanAccountService.ts:9-13 | the upper-cased form of a valid account matches the pattern and is its own upper case |
| LoanAccounts.GetNextEmiDueKeepsInv | typescript/mcp-servers/ap2-payment-mcp-server/src/payment/services/LoanAccountService.ts:8-22 | lookups keep every stored record a seed of its valid, upper-cased key, with status DUE or PAID |
| LoanAccounts.MarkInstallmentPaidKeepsInv | typescript/mcp-servers/ap2-payment-mcp-server/src/payment/services/LoanAccountService.ts:24-31 | marking paid keeps that invariant too, so the ledger never produces OVERDUE |
| LoanAccounts.LookupIgnoresCase | typescript/mcp-servers/ap2-payment-mcp-server/src/payment/services/LoanAccountService.ts:9-13 | two spellings of one account give the same store and the same answer |
| LoanAccounts.LookupIdempotent | typescript/mcp-servers/ap2-payment-mcp-server/src/payment/services/LoanAccountService.ts:14-16 | seeding happens once: a second lookup on any later day leaves the store and the answer as the first did |
| LoanAccounts.PaidMeansNoDue | typescript/mcp-servers/ap2-payment-mcp-server/src/payment/services/LoanAccountService.ts:18-20 | after marking a stored account paid, a lookup fails with no EMI due |
| LoanAccounts.MarkBeforeLookupIgnored | typescript/mcp-servers/ap2-payment-mcp-server/src/payment/services/LoanAccountService.ts:24-31 | marking an account paid before its first lookup has no effect, and that lookup succeeds |
| LoanAccounts.MarkInstallmentPaidIdempotent | typescript/mcp-servers/ap2-payment-mcp-server/src/payment/services/LoanAccountService.ts:24-31 | marking paid twice is marking once |
| PayLoanEmiDue.PlanFromDue | typescript/mcp-servers/ap2-payment-mcp-server/src/payment/tools/PayLoanEmiDueTool.ts:64-78 | the plan has one entry. EMI and total repayment are the total due, principal is the principal due, and interest is interest plus late charges in whole cents within half a cent. The entry copies the record's number, date and balance |
| PayLoanEmiDue.ContextFromDue | typescript/mcp-servers/ap2-payment-mcp-server/src/payment/tools/PayLoanEmiDueTool.ts:80-92 | the caller's customer id and anchor date win when given, else the record's; the currency is always the record's; the merchant agent id, merchant endpoint, credential provider id and payment network are the caller's; there is no phone number |
| PayLoanEmiDue.DuePlanBalancedIff | typescript/mcp-servers/ap2-payment-mcp-server/src/payment/tools/PayLoanEmiDueTool.ts:64-78 | the one-entry plan balances exactly when the total due is the principal plus the rounded interest and charges |
| PayLoanEmiDue.ExactDueBalanced | typescript/mcp-servers/ap2-payment-mcp-server/src/payment/tools/PayLoanEmiDueTool.ts:64-78 | a record with whole-cent interest and charges and an exact total gives a balanced plan |
| PayLoanEmiDue.SeededPlanBalanced | typescript/mcp-servers/ap2-payment-mcp-server/src/payment/tools/PayLoanEmiDueTool.ts:62-78 | every record the ledger seeds yields a balanced plan |
| PayLoanEmiDue.Settle | typescript/mcp-servers/ap2-payment-mcp-server/src/payment/tools/PayLoanEmiDueTool.ts:64-97 | after a found record: an unreadable anchor fails with that anchor before any submission; otherwise it succeeds exactly when no endpoint is configured or the submission of the assembled bundle succeeds, and a failed submission passes its error on. A success is consistent with one repayment, capped and budgeted at the total due, in the record's currency, anchored on the caller's date or the due date, with the anchor's day of month, the disclosed context and a receipt exactly when an endpoint is configured |
| PayLoanEmiDue.Execute | typescript/mcp-servers/ap2-payment-mcp-server/src/payment/tools/PayLoanEmiDueTool.ts:60-116 | the store is what the lookup left, and ledger failures pass through. It reports the record's account number, due date, total due and currency, and the one-entry schedule. It succeeds exactly when the lookup succeeds, the anchor date parses and, with an endpoint configured, the submission succeeds; an unreadable anchor and a failed submission each fail with their own error. On success the bundle is consistent with one repayment. Its per-debit cap and budget are the total due, its currency is the record's, its anchor is the caller's or the due date, and it discloses the caller's merchant, credential provider and network. It carries a receipt exactly when an endpoint is configured |
| PromptLoader.GetPrompt | typescript/mcp-servers/common/src/prompts/PromptLoader.ts:41-47 | succeeds exactly when the key holds a template, returning it; otherwise fails naming the key |
| PromptLoader.WordRun | typescript/mcp-servers/common/src/prompts/PromptLoader.ts:50 | `\w+` takes the longest run of word characters |
| PromptLoader.PlaceholderAt | typescript/mcp-servers/common/src/prompts/PromptLoader.ts:50 | a match is `{{`, a word, `}}` at the start of the text |
| PromptLoader.Tokenize | typescript/mcp-servers/common/src/prompts/PromptLoader.ts:50 | every placeholder the scan finds names a non-empty run of word characters |
| PromptLoader.TokenizeRoundTrip | typescript/mcp-servers/common/src/prompts/PromptLoader.ts:50 | splitting a template into literals and placeholders loses nothing |
| PromptLoader.UntokenizeRoundTrip | typescript/mcp-servers/common/src/prompts/PromptLoader.ts:50 | literals and word-named placeholders with no literal `{` are read back from their text exactly |
| PromptLoader.NoPlaceholderUnchanged | typescript/mcp-servers/common/src/prompts/PromptLoader.ts:49-51 | whatever the variable lookup, a template without `{{word}}` comes back unchanged |
| PromptLoader.RenderSlot | typescript/mcp-servers/common/src/prompts/PromptLoader.ts:50 | a leading placeholder is replaced by its value and the rest is rendered after it, so an inserted value is never scanned again |
| PromptLoader.Render | typescript/mcp-servers/common/src/prompts/PromptLoader.ts:49-51 | `renderMessage` with own-variable lookup: a template with no `{{word}}` is returned unchanged |
| PromptLoader.MissingRendersEmpty | typescript/mcp-servers/common/src/prompts/PromptLoader.ts:50 | a missing variable and one bound to `''` both render as `''` |
| PromptLoader.ValueNotRescanned | typescript/mcp-servers/common/src/prompts/PromptLoader.ts:50 | a value that looks like a placeholder is inserted as it is (example) |
| PromptLoader.SpacedNameIsText | typescript/mcp-servers/common/src/prompts/PromptLoader.ts:50 | `{{ x }}` is no placeholder (example) |
| PromptLoader.HyphenatedNameIsText | typescript/mcp-servers/common/src/prompts/PromptLoader.ts:50 | `{{a-b}}` is no placeholder (example) |
| PromptLoader.SubstituteAgrees | typescript/mcp-servers/common/src/prompts/PromptLoader.ts:50 | the as-written and the corrected lookups give the same text when every placeholder is a variable or names no `Object.prototype` member |
| PromptLoader.RenderAsWritten | typescript/mcp-servers/common/src/prompts/PromptLoader.ts:49-51 | `renderMessage` as written: a template with no placeholder is unchanged, and the text equals the corrected rendering when every placeholder is a variable or names no `Object.prototype` member |
| PromptLoader.RenderAsWrittenSlot | typescript/mcp-servers/common/src/prompts/PromptLoader.ts:50 | as written, a leading placeholder is replaced through the inherited-member lookup |
| PromptLoader.InheritedMemberLeaks | typescript/mcp-servers/common/src/prompts/PromptLoader.ts:50 | `{{constructor}}` with no variables renders as the text of JavaScript's `Object` function as written, and as `''` corrected |
| PromptLoader.KeyValueString | typescript/mcp-servers/common/src/prompts/PromptLoader.ts:53-57 | the text is empty exactly when there are no arguments, and one argument gives `key: value` with a missing value printed as empty; with KeyValueAppend this fixes the text of every list |
| PromptLoader.KeyValueAppend | typescript/mcp-servers/common/src/prompts/PromptLoader.ts:53-57 | the text for two argument lists is their texts joined by `, ` |

## Left out

- Floating point. Amounts are exact reals, so IEEE-754 drift, `NaN`, `Infinity` and the binary-fraction cases where `toFixed(2)` misrounds a decimal tie are not modelled. Every statement about totals and balances holds for exact arithmetic.
- Non-integer tenures and grace periods: `tenureMonths` and `gracePeriodMonths` are integers here. `Math.pow` with a fractional exponent and a loop bound that is not whole are not modelled.
- Date-string parsing (`new Date(text)`) is a parameter, `DateParser`, returning a date and a time of day or nothing. The ECMAScript date-string grammar and the TimeClip range (±8.64e15 ms) are not modelled.
- Calendar.IsoDateRoundTrip: proved only for years 0..9999. `toISOString` writes other years with a sign and six digits, which the model formats but does not read back.
- The clock (`new Date()` for the issue time, the submission time and the seeded due date), `randomUUID`, `process.env` and `fetch` are parameters. The seeded due date, today plus five days, is passed in as text.
- One `TransportConfig` stands for both reads of the environment: the tool reads `AP2_TRANSPORT_ENDPOINT` on every call, while the mandate service reads it and the API keys once when it is loaded. The model assumes the environment does not change while the program runs.
- Error message texts: the model returns typed errors (`PlanError`, `MandateError`, `SubmitError`, `LedgerError`, `PromptError`) naming the offending value instead of `Error` strings.
- Ap2MandateService.Submit: a `fetch` that rejects (network failure) and a `json()` that does not yield an object are folded into `UnreadableAcknowledgement` or left out. The acknowledgement is modelled as five optional strings.
- LoanAccounts.UpperChar: only ASCII letters are upper-cased; the full Unicode case mapping of `toUpperCase` is not modelled. That mapping can also lengthen text (`ß` becomes `SS`), so the source accepts `ABCDEFß` as account `ABCDEFSS` while `LoanAccounts.ValidAccount` rejects it.
- LoanAccounts.GetNextEmiDue: the returned summary is a value, so the aliasing through which a later `markInstallmentPaid` changes an object a caller still holds is not modelled.
- The text summary the tool returns alongside its structured content, and the MCP tool registration and zod schema. The request arrives already validated as `DueRequest`; e-mail syntax is not checked.
- `PromptLoader.getInstance` and its constructor: YAML loading and the per-path instance cache are file I/O. The loaded configuration is a `map`, with `None` standing for a falsy entry.
- PromptLoader.GetPrompt: keys that exist only on `Object.prototype` are not modelled; the configuration is taken to hold its own keys only.
- PromptLoader.KeyValueString: arguments are an ordered list of entries with their values already printed by `String()`. The re-ordering of integer-like keys by `Object.entries` is not modelled.
- The `riskSignals` record is open in the protocol types; the model holds the three signals the assembler writes.

## Findings

| source | as written | input that shows it | evidently intended | confidence | as-written member | corrected member |
|---|---|---|---|---|---|---|
| typescript/mcp-servers/common/src/prompts/PromptLoader.ts:50 | `variables[key] \|\| ''` also finds the members every object inherits from `Object.prototype` | template `{{constructor}}` with no variables renders `function Object() { [native code] }` | a placeholder with no variable of its own renders as `''` | not executed | PromptLoader.RenderAsWritten, shown by PromptLoader.InheritedMemberLeaks | PromptLoader.Render, with PromptLoader.MissingRendersEmpty |

=== FILE: ap2_mandate_service.dfy ===
/** The mandate assembler. It maps a repayment plan and its context to the
    three cross-referenced AP2 mandates (intent, cart, payment) and merges the
    remote endpoint's acknowledgement into a submission receipt. The random
    identifiers, the clock, the date parser, the transport settings and the
    remote endpoint are parameters, so every operation here is deterministic. */
module Ap2MandateService {
  import opened Wrappers
  import opened Money
  import opened Calendar
  import opened LoanPaymentTypes
  import opened Ap2Types

  // ---------------------------------------------------------------------------
  // Identifiers and constants

  /** The four independently drawn random suffixes, in the order they are drawn. */
  datatype IdDraw = IdDraw(intent: string, cart: string, payment: string, details: string)

  const IntentPrefix := "intent_"
  const CartPrefix := "cart_"
  const PaymentPrefix := "payment_"
  const DetailsPrefix := "emi_"

  /** An intent mandate stays valid for three days. */
  const IntentTtlMinutes := 4320

  const Ap2Version := "v0.1"

  /** `p + s` with the prefix `p` removed again; `None` when `s` does not start with `p`. */
  function StripPrefix(p: string, s: string): (r: Option<string>)
    ensures r.Some? ==> s == p + r.value
    ensures r.None? ==> forall t :: s != p + t
  {
    if |p| <= |s| && s[..|p|] == p then
      assert s == p + s[|p|..];
      Some(s[|p|..])
    else
      assert forall t :: (p + t)[..|p|] == p;
      None
  }

  /** The suffixes read back from a bundle's four identifiers. */
  function IdsOf(b: MandateBundle): Option<IdDraw> {
    match (StripPrefix(IntentPrefix, b.intentMandate.mandateId),
           StripPrefix(CartPrefix, b.cartMandate.mandateId),
           StripPrefix(PaymentPrefix, b.paymentMandate.mandateId),
           StripPrefix(DetailsPrefix, b.paymentMandate.paymentDetailsId))
    case (Some(i), Some(c), Some(p), Some(d)) => Some(IdDraw(i, c, p, d))
    case _ => None
  }

  /** The bundle `b` with its four identifiers rebuilt from `ids`. */
  function WithIds(b: MandateBundle, ids: IdDraw): (r: MandateBundle)
    ensures IdsOf(r) == Some(ids)
  {
    StripsOwnPrefix(IntentPrefix, ids.intent);
    StripsOwnPrefix(CartPrefix, ids.cart);
    StripsOwnPrefix(PaymentPrefix, ids.payment);
    StripsOwnPrefix(DetailsPrefix, ids.details);
    b.(intentMandate := b.intentMandate.(mandateId := IntentPrefix + ids.intent),
       cartMandate := b.cartMandate.(mandateId := CartPrefix + ids.cart),
       paymentMandate := b.paymentMandate.(mandateId := PaymentPrefix + ids.payment,
                                           paymentDetailsId := DetailsPrefix + ids.details))
  }

  lemma StripsOwnPrefix(p: string, s: string)
    ensures StripPrefix(p, p + s) == Some(s)
  {
    assert (p + s)[..|p|] == p;
    assert (p + s)[|p|..] == s;
  }

  // ---------------------------------------------------------------------------
  // createMandates

  /** `createMandates` throws for an anchor date that `new Date` cannot read. */
  datatype MandateError = InvalidAnchorDate(anchor: string)

  function Shopper(ctx: LoanPaymentMandateContext): ParticipantRef {
    ParticipantRef(ctx.customer.customerId, ctx.customer.fullName, None)
  }

  function Merchant(ctx: LoanPaymentMandateContext): ParticipantRef {
    ParticipantRef(ctx.merchantAgentId, None, Some(ctx.merchantEndpoint))
  }

  function CredentialProvider(ctx: LoanPaymentMandateContext): ParticipantRef {
    ParticipantRef(ctx.credentialProviderId, None, None)
  }

  function Amount(ctx: LoanPaymentMandateContext, value: real): MonetaryAmount {
    MonetaryAmount(ctx.repaymentCurrency, value)
  }

  /** The shopping-intent description, with the principal printed by `toFixed(2)`. */
  function Description(plan: LoanEmiPlan, ctx: LoanPaymentMandateContext): string {
    "Autopay EMI repayment for principal " + FixedTwo(plan.principalAmount) + " " + ctx.repaymentCurrency
  }

  function RiskSignals(plan: LoanEmiPlan, ctx: LoanPaymentMandateContext): map<string, RiskSignal> {
    map["ap2_version" := TextSignal(Ap2Version),
        "autopay_anchor_date" := TextSignal(ctx.autopayAnchorDate),
        "repayment_count" := CountSignal(|plan.schedule|)]
  }

  /** The three mandates built from a plan and a context. The bundle is
      consistent, carries the plan's figures and the disclosed context, and
      reads back the drawn identifiers. */
  function Assemble(plan: LoanEmiPlan, ctx: LoanPaymentMandateContext, ids: IdDraw, issuedAt: string, anchorDay: int)
    : (b: MandateBundle)
    ensures Consistent(b) && IdsOf(b) == Some(ids)
    ensures BundleFigures(b) == PlanFiguresOf(plan) && Currency(b) == ctx.repaymentCurrency
    ensures ContextOf(b) == Disclosed(ctx)
    ensures b.intentMandate.issuedAt == issuedAt && b.paymentMandate.autopayDayOfMonth == anchorDay
    ensures b.submissionReceipt.None?
  {
    StripsOwnPrefix(IntentPrefix, ids.intent);
    StripsOwnPrefix(CartPrefix, ids.cart);
    StripsOwnPrefix(PaymentPrefix, ids.payment);
    StripsOwnPrefix(DetailsPrefix, ids.details);
    var count := |plan.schedule|;
    var emi := Amount(ctx, plan.emiAmount);
    MandateBundle(
      IntentMandate(
        IntentPrefix + ids.intent,
        Shopper(ctx),
        Merchant(ctx),
        CredentialProvider(ctx),
        IntentTtlMinutes,
        ShoppingIntent(
          Description(plan, ctx),
          Amount(ctx, plan.totalRepayment),
          RepaymentProfile(count, plan.emiAmount, ctx.autopayAnchorDate)),
        PaymentConstraints([ctx.paymentMethodNetwork], ctx.repaymentCurrency, emi),
        RiskSignals(plan, ctx),
        None,
        issuedAt),
      CartMandate(
        CartPrefix + ids.cart,
        Merchant(ctx),
        Shopper(ctx),
        LoanSummary(
          Amount(ctx, plan.principalAmount),
          Amount(ctx, plan.totalRepayment),
          emi,
          count,
          ctx.autopayAnchorDate),
        ProcessorRef(ctx.merchantAgentId, Some(ctx.merchantEndpoint)),
        None,
        issuedAt),
      PaymentMandate(
        PaymentPrefix + ids.payment,
        DetailsPrefix + ids.details,
        ParticipantRef(ctx.merchantAgentId, None, None),
        CredentialProvider(ctx),
        emi,
        ctx.repaymentCurrency,
        count,
        ctx.autopayAnchorDate,
        anchorDay,
        ctx.paymentMethodNetwork,
        None,
        issuedAt),
      None)
  }

  /** `createMandates`: the anchor date is parsed first and an unreadable one is
      an error; otherwise every field is copied or derived from the plan and the
      context, and all three mandates share the issue time. */
  function CreateMandates(plan: LoanEmiPlan, ctx: LoanPaymentMandateContext, ids: IdDraw, issuedAt: string,
                          parse: DateParser): (r: Result<MandateBundle, MandateError>)
    ensures r.Failure? <==> parse(ctx.autopayAnchorDate).None?
    ensures r.Failure? ==> r.error == InvalidAnchorDate(ctx.autopayAnchorDate)
    ensures r.Success? ==>
      && Consistent(r.value)
      && r.value.intentMandate.issuedAt == issuedAt
      && Currency(r.value) == ctx.repaymentCurrency
      && BundleFigures(r.value) == PlanFiguresOf(plan)
      && ContextOf(r.value) == Disclosed(ctx)
      && IdsOf(r.value) == Some(ids)
      && r.value.paymentMandate.autopayDayOfMonth == parse(ctx.autopayAnchorDate).value.date.day
      && 1 <= r.value.paymentMandate.autopayDayOfMonth <= 31
      && r.value.submissionReceipt.None?
  {
    match parse(ctx.autopayAnchorDate)
    case None => Failure(InvalidAnchorDate(ctx.autopayAnchorDate))
    case Some(anchor) =>
      Success(Assemble(plan, ctx, ids, issuedAt, anchor.date.day))
  }

  // ---------------------------------------------------------------------------
  // What a bundle states, read back from the bundle alone

  /** The plan figures a bundle carries: EMI, total repayment, principal and
      number of installments. */
  datatype PlanFigures = PlanFigures(emi: real, totalRepayment: real, principal: real, count: int)

  function PlanFiguresOf(plan: LoanEmiPlan): PlanFigures {
    PlanFigures(plan.emiAmount, plan.totalRepayment, plan.principalAmount, |plan.schedule|)
  }

  function BundleFigures(b: MandateBundle): PlanFigures {
    PlanFigures(b.paymentMandate.emiAmount.value,
                b.cartMandate.loanSummary.totalRepayment.value,
                b.cartMandate.loanSummary.principal.value,
                b.paymentMandate.repaymentCount)
  }

  function Currency(b: MandateBundle): string {
    b.paymentMandate.repaymentCurrency
  }

  /** The part of a context the mandates disclose: e-mail and phone are not copied. */
  function Disclosed(ctx: LoanPaymentMandateContext): LoanPaymentMandateContext {
    ctx.(customer := LoanCustomerContext(ctx.customer.customerId, ctx.customer.fullName, None, None))
  }

  /** The context read back from a bundle's intent and payment mandates. */
  function ContextOf(b: MandateBundle): LoanPaymentMandateContext {
    var intent := b.intentMandate;
    LoanPaymentMandateContext(
      LoanCustomerContext(intent.shopper.id, intent.shopper.name, None, None),
      intent.merchant.id,
      intent.merchant.endpoint.GetOr(""),
      intent.credentialProvider.id,
      b.paymentMandate.paymentMethodNetwork,
      b.paymentMandate.repaymentCurrency,
      b.paymentMandate.repaymentAnchorDate)
  }

  /** Every place a bundle names an amount uses the one currency. */
  predicate SingleCurrency(b: MandateBundle) {
    var c := Currency(b);
    && b.intentMandate.shoppingIntent.maxBudget.currency == c
    && b.intentMandate.paymentConstraints.currency == c
    && b.intentMandate.paymentConstraints.maxSingleDebit.currency == c
    && b.cartMandate.loanSummary.principal.currency == c
    && b.cartMandate.loanSummary.totalRepayment.currency == c
    && b.cartMandate.loanSummary.emiAmount.currency == c
    && b.paymentMandate.emiAmount.currency == c
  }

  /** The EMI, the budget and the installment count agree across the mandates. */
  predicate AgreedTerms(b: MandateBundle) {
    var t := BundleFigures(b);
    && b.intentMandate.shoppingIntent.maxBudget.value == t.totalRepayment
    && b.intentMandate.shoppingIntent.repaymentProfile.emiAmount == t.emi
    && b.intentMandate.shoppingIntent.repaymentProfile.tenureMonths == t.count
    && b.intentMandate.paymentConstraints.maxSingleDebit.value == t.emi
    && "repayment_count" in b.intentMandate.riskSignals
    && b.intentMandate.riskSignals["repayment_count"] == CountSignal(t.count)
    && b.cartMandate.loanSummary.emiAmount.value == t.emi
    && b.cartMandate.loanSummary.tenureMonths == t.count
  }

  /** The same parties, anchor date and issue time appear in every mandate. */
  predicate SharedParties(b: MandateBundle) {
    var intent := b.intentMandate;
    var anchor := b.paymentMandate.repaymentAnchorDate;
    && b.cartMandate.shopper == intent.shopper
    && b.cartMandate.merchant == intent.merchant
    && b.cartMandate.paymentProcessor == ProcessorRef(intent.merchant.id, intent.merchant.endpoint)
    && b.paymentMandate.merchantAgent == ParticipantRef(intent.merchant.id, None, None)
    && b.paymentMandate.credentialProvider == intent.credentialProvider
    && intent.paymentConstraints.allowedNetworks == [b.paymentMandate.paymentMethodNetwork]
    && intent.shoppingIntent.repaymentProfile.startDate == anchor
    && b.cartMandate.loanSummary.scheduleAnchorDate == anchor
    && "autopay_anchor_date" in intent.riskSignals
    && intent.riskSignals["autopay_anchor_date"] == TextSignal(anchor)
    && b.cartMandate.issuedAt == intent.issuedAt
    && b.paymentMandate.createdAt == intent.issuedAt
  }

  /** Which optional party fields are set: only the merchant has an endpoint,
      and only the shopper may have a name. */
  predicate PartyFields(b: MandateBundle) {
    var intent := b.intentMandate;
    && intent.shopper.endpoint.None?
    && intent.merchant.name.None? && intent.merchant.endpoint.Some?
    && intent.credentialProvider.name.None? && intent.credentialProvider.endpoint.None?
  }

  /** The fixed settings: three-day validity, protocol version, no signatures. */
  predicate FixedSettings(b: MandateBundle) {
    && b.intentMandate.ttlMinutes == IntentTtlMinutes
    && "ap2_version" in b.intentMandate.riskSignals
    && b.intentMandate.riskSignals["ap2_version"] == TextSignal(Ap2Version)
    && b.intentMandate.userSignature.None?
    && b.cartMandate.merchantSignature.None?
    && b.paymentMandate.authorizationEnvelope.None?
  }

  /** The cross-references a bundle from `createMandates` always satisfies. */
  predicate Consistent(b: MandateBundle) {
    && SingleCurrency(b)
    && AgreedTerms(b)
    && SharedParties(b)
    && PartyFields(b)
    && FixedSettings(b)
    && IdsOf(b).Some?
  }

  // ---------------------------------------------------------------------------
  // Properties of createMandates

  /** The four identifiers of a bundle differ whatever suffixes were drawn,
      because the four prefixes start with different letters. */
  lemma MandateIdsDistinct(plan: LoanEmiPlan, ctx: LoanPaymentMandateContext, ids: IdDraw, issuedAt: string,
                           parse: DateParser)
    requires parse(ctx.autopayAnchorDate).Some?
    ensures var b := CreateMandates(plan, ctx, ids, issuedAt, parse).value;
      |{b.intentMandate.mandateId, b.cartMandate.mandateId, b.paymentMandate.mandateId,
        b.paymentMandate.paymentDetailsId}| == 4
  {
    var b := CreateMandates(plan, ctx, ids, issuedAt, parse).value;
    var i, c, p, d := b.intentMandate.mandateId, b.cartMandate.mandateId, b.paymentMandate.mandateId,
                      b.paymentMandate.paymentDetailsId;
    assert i[0] == 'i' && c[0] == 'c' && p[0] == 'p' && d[0] == 'e';
    assert {i, c, p, d} == {i} + {c} + {p} + {d};
    assert |{i, c} | == 2;
    assert |{i, c, p}| == 3 by { assert {i, c, p} == {i, c} + {p}; }
    assert |{i, c, p, d}| == 4 by { assert {i, c, p, d} == {i, c, p} + {d}; }
  }

  /** Two runs that draw different identifiers produce the same bundle up to
      those identifiers. */
  lemma OnlyIdsDiffer(plan: LoanEmiPlan, ctx: LoanPaymentMandateContext, ids1: IdDraw, ids2: IdDraw,
                      issuedAt: string, parse: DateParser)
    requires parse(ctx.autopayAnchorDate).Some?
    ensures CreateMandates(plan, ctx, ids2, issuedAt, parse).value
         == WithIds(CreateMandates(plan, ctx, ids1, issuedAt, parse).value, ids2)
  {
  }

  /** The bundle depends on the plan only through its EMI, totals, principal
      and installment count. */
  lemma DependsOnPlanTerms(plan1: LoanEmiPlan, plan2: LoanEmiPlan, ctx: LoanPaymentMandateContext, ids: IdDraw,
                           issuedAt: string, parse: DateParser)
    requires PlanFiguresOf(plan1) == PlanFiguresOf(plan2)
    ensures CreateMandates(plan1, ctx, ids, issuedAt, parse) == CreateMandates(plan2, ctx, ids, issuedAt, parse)
  {
    assert |plan1.schedule| == |plan2.schedule|;
  }

  // ---------------------------------------------------------------------------
  // submitMandates

  /** The transport settings read from the environment once, at start-up. */
  datatype TransportConfig = TransportConfig(endpoint: Option<string>, googleApiKey: Option<string>,
                                             ap2ApiKey: Option<string>)

  /** JavaScript truthiness of an optional string: present and not empty. */
  predicate Truthy(s: Option<string>) {
    s.Some? && s.value != ""
  }

  /** `GOOGLE_API_KEY || AP2_API_KEY`: the first when truthy, else the second as it is. */
  function ApiKey(config: TransportConfig): (k: Option<string>)
    ensures Truthy(k) <==> Truthy(config.googleApiKey) || Truthy(config.ap2ApiKey)
    ensures Truthy(config.googleApiKey) ==> k == config.googleApiKey
    ensures !Truthy(config.googleApiKey) ==> k == config.ap2ApiKey
  {
    if Truthy(config.googleApiKey) then config.googleApiKey else config.ap2ApiKey
  }

  datatype Header = Header(name: string, value: string)

  /** The request sent to the endpoint: its method, headers and the three mandates of the bundle. */
  datatype SubmissionRequest = SubmissionRequest(
    httpMethod: string,
    url: string,
    headers: seq<Header>,
    intentMandate: IntentMandate,
    cartMandate: CartMandate,
    paymentMandate: PaymentMandate)

  function Headers(key: Option<string>): (h: seq<Header>)
    ensures 1 <= |h| && h[0] == Header("Content-Type", "application/json")
    ensures (exists v :: Header("Authorization", v) in h) <==> Truthy(key)
    ensures Truthy(key) ==> Header("Authorization", "Bearer " + key.value) in h
  {
    var json := Header("Content-Type", "application/json");
    if Truthy(key) then [json, Header("Authorization", "Bearer " + key.value)] else [json]
  }

  /** The POST for a bundle: JSON content type first, a bearer token exactly
      when either key is truthy, and the three mandates without any receipt. */
  function Request(b: MandateBundle, url: string, config: TransportConfig): (r: SubmissionRequest)
    ensures r.httpMethod == "POST" && r.url == url && 1 <= |r.headers| && r.headers[0] == Header("Content-Type", "application/json")
    ensures (exists v :: Header("Authorization", v) in r.headers)
            <==> Truthy(config.googleApiKey) || Truthy(config.ap2ApiKey)
    ensures r.intentMandate == b.intentMandate && r.cartMandate == b.cartMandate
            && r.paymentMandate == b.paymentMandate
  {
    SubmissionRequest("POST", url, Headers(ApiKey(config)), b.intentMandate, b.cartMandate, b.paymentMandate)
  }

  /** The fields of the acknowledgement the receipt reads; `None` is a field
      that is missing or `null`. */
  datatype Acknowledgement = Acknowledgement(
    referenceId: Option<string>,
    id: Option<string>,
    status: Option<string>,
    submittedAt: Option<string>,
    transport: Option<string>)

  /** The endpoint's reply: status code, body text, and the body read as an
      acknowledgement when it is a JSON object. */
  datatype RemoteResponse = RemoteResponse(status: nat, body: string, json: Option<Acknowledgement>)

  /** `response.ok`: a status in the 2xx range. */
  predicate Ok(response: RemoteResponse) {
    200 <= response.status <= 299
  }

  datatype SubmitError =
    | SubmissionFailed(status: nat, body: string)
    | UnreadableAcknowledgement

  /** The receipt: each field from the acknowledgement, falling back only when
      the field is missing (`??`); an empty string is kept. */
  function MergeReceipt(ack: Acknowledgement, freshId: string, now: string): (r: SubmissionReceipt)
    ensures ack.referenceId.Some? ==> r.referenceId == ack.referenceId.value
    ensures ack.referenceId.None? && ack.id.Some? ==> r.referenceId == ack.id.value
    ensures ack.referenceId.None? && ack.id.None? ==> r.referenceId == freshId
    ensures r.status == ack.status.GetOr("QUEUED")
    ensures r.submittedAt == ack.submittedAt.GetOr(now)
    ensures r.transport == ack.transport.GetOr("http")
  {
    SubmissionReceipt(
      ack.referenceId.GetOr(ack.id.GetOr(freshId)),
      ack.status.GetOr("QUEUED"),
      ack.submittedAt.GetOr(now),
      ack.transport.GetOr("http"))
  }

  /** `submitMandates`: without an endpoint the bundle comes back as it is;
      otherwise the three mandates are posted, a non-2xx reply is an error
      carrying its status and body, and an accepted one adds a receipt. */
  function Submit(b: MandateBundle, config: TransportConfig, remote: SubmissionRequest -> RemoteResponse,
                  freshId: string, now: string): (r: Result<MandateBundle, SubmitError>)
    ensures !Truthy(config.endpoint) ==> r == Success(b)
    ensures Truthy(config.endpoint) ==>
      var response := remote(Request(b, config.endpoint.value, config));
      && (!Ok(response) ==> r == Failure(SubmissionFailed(response.status, response.body)))
      && (r.Success? <==> Ok(response) && response.json.Some?)
      && (r.Success? ==> r.value.submissionReceipt == Some(MergeReceipt(response.json.value, freshId, now)))
    ensures r.Success? ==> SameMandates(r.value, b)
  {
    if !Truthy(config.endpoint) then
      Success(b)
    else
      var response := remote(Request(b, config.endpoint.value, config));
      if !Ok(response) then
        Failure(SubmissionFailed(response.status, response.body))
      else
        match response.json
        case None => Failure(UnreadableAcknowledgement)
        case Some(ack) => Success(b.(submissionReceipt := Some(MergeReceipt(ack, freshId, now))))
  }

  predicate SameMandates(x: MandateBundle, y: MandateBundle) {
    x.intentMandate == y.intentMandate && x.cartMandate == y.cartMandate && x.paymentMandate == y.paymentMandate
  }

  // ---------------------------------------------------------------------------
  // Properties of submitMandates

  /** Submission never breaks the cross-references of a bundle. */
  lemma SubmitKeepsConsistent(b: MandateBundle, config: TransportConfig, remote: SubmissionRequest -> RemoteResponse,
                              freshId: string, now: string)
    requires Consistent(b)
    ensures var r := Submit(b, config, remote, freshId, now);
      r.Success? ==>
        Consistent(r.value) && BundleFigures(r.value) == BundleFigures(b) && ContextOf(r.value) == ContextOf(b)
  {
  }

  /** What is posted is exactly the three mandates, never an earlier receipt. */
  lemma RequestCarriesMandates(b1: MandateBundle, b2: MandateBundle, url: string, config: TransportConfig)
    requires SameMandates(b1, b2)
    ensures Request(b1, url, config) == Request(b2, url, config)
  {
  }

  /** A missing status or transport falls back to a declared value, but a
      present one is copied without checking it against the declared sets. */
  lemma ReceiptStatusUnchecked(freshId: string, now: string)
    ensures DeclaredStatus(MergeReceipt(Acknowledgement(None, None, None, None, None), freshId, now).status)
    ensures DeclaredTransport(MergeReceipt(Acknowledgement(None, None, None, None, None), freshId, now).transport)
    ensures var r := MergeReceipt(Acknowledgement(None, None, Some("REJECTED"), None, Some("smtp")), freshId, now);
      !DeclaredStatus(r.status) && !DeclaredTransport(r.transport)
  {
  }
}

=== FILE: ap2_types.dfy ===
/** The three mandates of the Agent Payments Protocol (AP2) as this system fills
    them, the bundle that holds them, and the optional submission receipt. */
module Ap2Types {
  import opened Wrappers
  import opened Money

  datatype ParticipantRef = ParticipantRef(id: string, name: Option<string>, endpoint: Option<string>)

  datatype RepaymentProfile = RepaymentProfile(tenureMonths: int, emiAmount: real, startDate: string)

  datatype ShoppingIntent = ShoppingIntent(
    description: string,
    maxBudget: MonetaryAmount,
    repaymentProfile: RepaymentProfile)

  datatype PaymentConstraints = PaymentConstraints(
    allowedNetworks: seq<string>,
    currency: string,
    maxSingleDebit: MonetaryAmount)

  /** A value of the open `riskSignals` record: the assembler stores text and counts. */
  datatype RiskSignal = TextSignal(text: string) | CountSignal(count: int)

  datatype IntentMandate = IntentMandate(
    mandateId: string,
    shopper: ParticipantRef,
    merchant: ParticipantRef,
    credentialProvider: ParticipantRef,
    ttlMinutes: int,
    shoppingIntent: ShoppingIntent,
    paymentConstraints: PaymentConstraints,
    riskSignals: map<string, RiskSignal>,
    userSignature: Option<string>,
    issuedAt: string)

  datatype LoanSummary = LoanSummary(
    principal: MonetaryAmount,
    totalRepayment: MonetaryAmount,
    emiAmount: MonetaryAmount,
    tenureMonths: int,
    scheduleAnchorDate: string)

  datatype ProcessorRef = ProcessorRef(id: string, endpoint: Option<string>)

  datatype CartMandate = CartMandate(
    mandateId: string,
    merchant: ParticipantRef,
    shopper: ParticipantRef,
    loanSummary: LoanSummary,
    paymentProcessor: ProcessorRef,
    merchantSignature: Option<string>,
    issuedAt: string)

  datatype PaymentMandate = PaymentMandate(
    mandateId: string,
    paymentDetailsId: string,
    merchantAgent: ParticipantRef,
    credentialProvider: ParticipantRef,
    emiAmount: MonetaryAmount,
    repaymentCurrency: string,
    repaymentCount: int,
    repaymentAnchorDate: string,
    autopayDayOfMonth: int,
    paymentMethodNetwork: string,
    authorizationEnvelope: Option<string>,
    createdAt: string)

  /** Status and transport hold whatever text the remote acknowledgement carried. */
  datatype SubmissionReceipt = SubmissionReceipt(
    referenceId: string,
    status: string,
    submittedAt: string,
    transport: string)

  datatype MandateBundle = MandateBundle(
    intentMandate: IntentMandate,
    cartMandate: CartMandate,
    paymentMandate: PaymentMandate,
    submissionReceipt: Option<SubmissionReceipt>)

  /** The receipt statuses the protocol types declare. */
  predicate DeclaredStatus(s: string) {
    s == "QUEUED" || s == "PENDING_USER_SIGNATURE" || s == "REGISTERED"
  }

  /** The receipt transports the protocol types declare. */
  predicate DeclaredTransport(s: string) {
    s == "http" || s == "a2a" || s == "mcp"
  }
}

=== FILE: calendar.dfy ===
/** Proleptic Gregorian calendar arithmetic in UTC, as the `Date` object of
    ECMA-262 (section 21.4, Date Objects) performs it: days in month, the
    day number of a date (MakeDay), adding months with day overflow, and the
    date part of the ISO 8601 string that `toISOString` prints. */
module Calendar {
  import opened Wrappers
  import opened Digits

  /** A calendar date; `month` runs 1..12 (the source's UTC month plus one). */
  datatype Date = Date(year: int, month: int, day: int)

  predicate IsLeapYear(y: int) {
    y % 4 == 0 && (y % 100 != 0 || y % 400 == 0)
  }

  function DaysInYear(y: int): int {
    if IsLeapYear(y) then 366 else 365
  }

  function DaysInMonth(y: int, m: int): (n: int)
    requires 1 <= m <= 12
    ensures 28 <= n <= 31
    ensures m == 2 ==> (n == 29 <==> IsLeapYear(y))
  {
    if m == 2 then (if IsLeapYear(y) then 29 else 28)
    else if m == 4 || m == 6 || m == 9 || m == 11 then 30
    else 31
  }

  predicate ValidDate(d: Date) {
    1 <= d.month <= 12 && 1 <= d.day <= DaysInMonth(d.year, d.month)
  }

  type CalendarDate = d: Date | ValidDate(d) witness Date(1970, 1, 1)

  /** A parsed time value, split into its UTC date and the milliseconds into that day. */
  datatype Instant = Instant(date: CalendarDate, msOfDay: int)

  /** `new Date(text)`: some instant, or `None` when the result is an invalid date (NaN). */
  type DateParser = string -> Option<Instant>

  // ---------------------------------------------------------------------------
  // Day numbers (ECMA-262 DayFromYear / MakeDay)

  /** Days from 1970-01-01 to January 1st of year `y`. */
  function DayFromYear(y: int): int {
    365 * (y - 1970) + (y - 1969) / 4 - (y - 1901) / 100 + (y - 1601) / 400
  }

  /** Days in the months of year `y` that precede month `m` (the cumulative
      table behind ECMA-262's MonthFromTime); m == 13 gives the whole year. */
  function DaysBeforeMonth(y: int, m: int): int
    requires 1 <= m <= 13
  {
    var leap := if IsLeapYear(y) then 1 else 0;
    if m == 1 then 0
    else if m == 2 then 31
    else [59, 90, 120, 151, 181, 212, 243, 273, 304, 334, 365][m - 3] + leap
  }

  /** Days from 1970-01-01 to the date. */
  function DayNumber(d: Date): int
    requires 1 <= d.month <= 12
  {
    DayFromYear(d.year) + DaysBeforeMonth(d.year, d.month) + d.day - 1
  }

  /** MakeDay(year, month, date) with a zero-based month that may lie outside 0..11:
      the day of the first of the normalised month, plus `date - 1`. */
  function MakeDay(year: int, month0: int, date: int): int {
    var ym := year + month0 / 12;
    var mn := month0 % 12;
    DayFromYear(ym) + DaysBeforeMonth(ym, mn + 1) + date - 1
  }

  // ---------------------------------------------------------------------------
  // Adding months

  /** The month after (y, m). */
  function NextMonth(y: int, m: int): (r: (int, int))
    requires 1 <= m <= 12
    ensures 1 <= r.1 <= 12
  {
    if m == 12 then (y + 1, 1) else (y, m + 1)
  }

  /** The year `Date.UTC` uses: ECMA-262's MakeFullYear reads a year from 0 to 99
      as 1900 plus that year. */
  function FullYear(y: int): int {
    if 0 <= y <= 99 then 1900 + y else y
  }

  /** `new Date(Date.UTC(getUTCFullYear(), getUTCMonth(), getUTCDate()))`: the
      UTC midnight of `d`, in the year `Date.UTC` makes of it. Only 29 February
      of year 0 lacks a counterpart (1900 is no leap year) and spills into March. */
  function UtcMidnight(d: CalendarDate): CalendarDate {
    var y := FullYear(d.year);
    var dim := DaysInMonth(y, d.month);
    if d.day <= dim then Date(y, d.month, d.day)
    else Date(y, d.month + 1, d.day - dim)
  }

  /** `setUTCMonth(getUTCMonth() + months)` on a UTC midnight: the month index
      carries into the year (no MakeFullYear here); a day the target month
      lacks spills into the following month. */
  function MoveMonths(d: CalendarDate, months: int): (r: CalendarDate)
    ensures var t := d.year * 12 + (d.month - 1) + months;
            var ty := t / 12;
            var tm := t % 12 + 1;
            (d.day <= DaysInMonth(ty, tm) ==> r == Date(ty, tm, d.day))
            && (d.day > DaysInMonth(ty, tm) ==>
                  tm < 12 && r == Date(ty, tm + 1, d.day - DaysInMonth(ty, tm)) && r.day <= 3)
  {
    var t := d.year * 12 + (d.month - 1) + months;
    var ty := t / 12;
    var tm := t % 12 + 1;
    var dim := DaysInMonth(ty, tm);
    if d.day <= dim then Date(ty, tm, d.day)
    else
      var (ny, nm) := NextMonth(ty, tm);
      Date(ny, nm, d.day - dim)
  }

  /** `addMonths(date, months)`: rebuild the UTC midnight, then move its month. */
  function AddMonths(d: CalendarDate, months: int): CalendarDate {
    MoveMonths(UtcMidnight(d), months)
  }

  // ---------------------------------------------------------------------------
  // ISO 8601 date text

  /** The year as `toISOString` writes it: four digits for 0..9999, otherwise a
      sign and six digits (the expanded years of ECMA-262 section 21.4.1.32.2). */
  function IsoYear(y: int): string {
    if 0 <= y <= 9999 then ZeroPad(y, 4)
    else if y < 0 then "-" + ZeroPad(-y, 6)
    else "+" + ZeroPad(y, 6)
  }

  /** A year from 0 to 9999 is written in four characters; any other year in
      at least seven (a sign and six digits). */
  lemma IsoYearLength(y: int)
    ensures 0 <= y <= 9999 ==> |IsoYear(y)| == 4
    ensures !(0 <= y <= 9999) ==> |IsoYear(y)| >= 7
  {
    if 0 <= y <= 9999 {
      ZeroPadLength(y, 4);
    }
  }

  /** `toISOString().split('T')[0]`: `YYYY-MM-DD`. */
  function FormatIsoDate(d: CalendarDate): string {
    IsoYear(d.year) + "-" + ZeroPad(d.month, 2) + "-" + ZeroPad(d.day, 2)
  }

  /** Whatever the year, the ISO text ends in `-MM-DD`, two-digit fields that
      read back as the month and the day; it is ten characters long exactly
      when the year has four digits. */
  lemma FormatIsoDateShape(d: CalendarDate)
    ensures var s := FormatIsoDate(d);
            && |s| >= 10 && s[|s| - 6] == '-' && s[|s| - 3] == '-'
            && (|s| == 10 <==> 0 <= d.year <= 9999)
            && AllDigits(s[|s| - 5..|s| - 3]) && ParseDecimal(s[|s| - 5..|s| - 3]) == d.month
            && AllDigits(s[|s| - 2..]) && ParseDecimal(s[|s| - 2..]) == d.day
  {
    var m := ZeroPad(d.month, 2);
    var dd := ZeroPad(d.day, 2);
    IsoYearLength(d.year);
    ZeroPadLength(d.month, 2);
    ZeroPadLength(d.day, 2);
    ParseZeroPad(d.month, 2);
    ParseZeroPad(d.day, 2);
    DashedFields(IsoYear(d.year), m, dd);
  }

  /** Where the two-character fields of `y-mm-dd` sit, counted from the end. */
  lemma DashedFields(y: string, mm: string, dd: string)
    requires |mm| == 2 && |dd| == 2
    ensures var s := y + "-" + mm + "-" + dd;
            |s| == |y| + 6 && s[|s| - 6] == '-' && s[|s| - 3] == '-'
            && s[|s| - 5..|s| - 3] == mm && s[|s| - 2..] == dd
  {
    var s := y + "-" + mm + "-" + dd;
    assert s[|s| - 5..|s| - 3] == mm;
    assert s[|s| - 2..] == dd;
  }

  /** Reads `YYYY-MM-DD` with a four-digit year; `None` for any other text or an
      impossible date. */
  function ParseIsoDate(s: string): Option<CalendarDate> {
    if |s| == 10 && s[4] == '-' && s[7] == '-'
       && AllDigits(s[..4]) && AllDigits(s[5..7]) && AllDigits(s[8..])
    then
      var d := Date(ParseDecimal(s[..4]), ParseDecimal(s[5..7]), ParseDecimal(s[8..]));
      if ValidDate(d) then Some(d) else None
    else
      None
  }

  // ---------------------------------------------------------------------------
  // Properties

  /** Printing a date with a four-digit year and reading it back gives the date. */
  lemma IsoDateRoundTrip(d: CalendarDate)
    requires 0 <= d.year <= 9999
    ensures ParseIsoDate(FormatIsoDate(d)) == Some(d)
  {
    var y := ZeroPad(d.year, 4);
    var m := ZeroPad(d.month, 2);
    var dd := ZeroPad(d.day, 2);
    ZeroPadLength(d.year, 4);
    ZeroPadLength(d.month, 2);
    ZeroPadLength(d.day, 2);
    var s := FormatIsoDate(d);
    assert s == y + "-" + m + "-" + dd;
    assert s[..4] == y;
    assert s[5..7] == m;
    assert s[8..] == dd;
    ParseZeroPad(d.year, 4);
    ParseZeroPad(d.month, 2);
    ParseZeroPad(d.day, 2);
  }

  /** Consecutive years start DaysInYear apart. */
  lemma DayFromYearStep(y: int)
    ensures DayFromYear(y + 1) == DayFromYear(y) + DaysInYear(y)
  {
    FourYearCountStep(y);
    CenturyCountStep(y);
    FourCenturyCountStep(y);
    DivisorChain(y);
    var f := if y % 4 == 0 then 1 else 0;
    var c := if y % 100 == 0 then 1 else 0;
    var q := if y % 400 == 0 then 1 else 0;
    assert DayFromYear(y + 1) == DayFromYear(y) + 365 + f - c + q;
  }

  /** Every multiple of 400 is one of 100, and every multiple of 100 one of 4. */
  lemma DivisorChain(y: int)
    ensures y % 400 == 0 ==> y % 100 == 0
    ensures y % 100 == 0 ==> y % 4 == 0
  {
  }

  // Each of DayFromYear's three leap-day counts grows by one exactly when `y`
  // is a multiple of its divisor.

  lemma FourYearCountStep(y: int)
    ensures (y - 1968) / 4 - (y - 1969) / 4 == (if y % 4 == 0 then 1 else 0)
  {
  }

  lemma CenturyCountStep(y: int)
    ensures (y - 1900) / 100 - (y - 1901) / 100 == (if y % 100 == 0 then 1 else 0)
  {
  }

  lemma FourCenturyCountStep(y: int)
    ensures (y - 1600) / 400 - (y - 1601) / 400 == (if y % 400 == 0 then 1 else 0)
  {
  }

  /** Each row of the table adds the length of the month before it. */
  lemma DaysBeforeNextMonth(y: int, m: int)
    requires 1 <= m <= 12
    ensures DaysBeforeMonth(y, m + 1) == DaysBeforeMonth(y, m) + DaysInMonth(y, m)
  {
  }

  lemma DaysBeforeMonthBounds(y: int, m: int)
    requires 1 <= m <= 12
    ensures 0 <= DaysBeforeMonth(y, m)
    ensures DaysBeforeMonth(y, m) + DaysInMonth(y, m) <= DaysBeforeMonth(y, 13)
  {
  }

  lemma DaysBeforeMonthYear(y: int)
    ensures DaysBeforeMonth(y, 13) == DaysInYear(y)
  {
  }

  lemma {:induction false} DaysBeforeMonthMonotone(y: int, m1: int, m2: int)
    requires 1 <= m1 < m2 <= 12
    ensures DaysBeforeMonth(y, m1) + DaysInMonth(y, m1) <= DaysBeforeMonth(y, m2)
    decreases m2 - m1
  {
    DaysBeforeNextMonth(y, m1);
    if m1 + 1 < m2 {
      DaysBeforeMonthMonotone(y, m1 + 1, m2);
    }
  }

  lemma {:induction false} DayFromYearMonotone(y1: int, y2: int)
    requires y1 < y2
    ensures DayFromYear(y1) + DaysInYear(y1) <= DayFromYear(y2)
    decreases y2 - y1
  {
    DayFromYearStep(y1);
    if y1 + 1 < y2 {
      DayFromYearMonotone(y1 + 1, y2);
    }
  }

  /** A valid date lies within its year's span of day numbers. */
  lemma DayNumberWithinYear(d: CalendarDate)
    ensures DayFromYear(d.year) <= DayNumber(d) < DayFromYear(d.year) + DaysInYear(d.year)
  {
    DaysBeforeMonthBounds(d.year, d.month);
    DaysBeforeMonthYear(d.year);
  }

  /** Distinct valid dates have distinct day numbers. */
  lemma DayNumberInjective(a: CalendarDate, b: CalendarDate)
    requires DayNumber(a) == DayNumber(b)
    ensures a == b
  {
    DayNumberWithinYear(a);
    DayNumberWithinYear(b);
    if a.year < b.year {
      DayFromYearMonotone(a.year, b.year);
    } else if b.year < a.year {
      DayFromYearMonotone(b.year, a.year);
    }
    assert a.year == b.year;
    if a.month < b.month {
      DaysBeforeMonthMonotone(a.year, a.month, b.month);
    } else if b.month < a.month {
      DaysBeforeMonthMonotone(a.year, b.month, a.month);
    }
  }

  /** Whole years in a month index carry out of the division by twelve. */
  lemma MonthCarry(year: int, mo: int)
    ensures (year * 12 + mo) / 12 == year + mo / 12
    ensures (year * 12 + mo) % 12 == mo % 12
  {
  }

  /** The zero-based month index `months` after the month of `d`, as MakeDay takes it. */
  function MonthIndexAfter(d: Date, months: int): int {
    d.month - 1 + months
  }

  /** A valid date's day number is MakeDay of its own fields. */
  lemma DayNumberIsMakeDay(d: CalendarDate)
    ensures DayNumber(d) == MakeDay(d.year, d.month - 1, d.day)
  {
    InYearMonthIndex(d.month - 1);
  }

  /** A month index within the year stays in that year. */
  lemma InYearMonthIndex(mo: int)
    requires 0 <= mo <= 11
    ensures mo / 12 == 0 && mo % 12 == mo
  {
  }

  /** The rebuilt midnight lies in the year `Date.UTC` makes, keeps a date
      that exists in that year, and leaves a date outside years 0..99 as it is. */
  lemma UtcMidnightFields(d: CalendarDate)
    ensures UtcMidnight(d).year == FullYear(d.year)
    ensures d.day <= DaysInMonth(FullYear(d.year), d.month) ==> UtcMidnight(d) == Date(FullYear(d.year), d.month, d.day)
    ensures !(0 <= d.year <= 99) ==> UtcMidnight(d) == d
  {
  }

  /** The rebuilt midnight is the day ECMA-262's MakeDay gives for the year
      `Date.UTC` makes, whether or not the date exists in that year. */
  lemma UtcMidnightIsMakeDay(d: CalendarDate)
    ensures DayNumber(UtcMidnight(d)) == MakeDay(FullYear(d.year), d.month - 1, d.day)
  {
    var y := FullYear(d.year);
    var r := UtcMidnight(d);
    InYearMonthIndex(d.month - 1);
    if d.day > DaysInMonth(y, d.month) {
      DaysBeforeNextMonth(y, d.month);
      assert r == Date(y, d.month + 1, d.day - DaysInMonth(y, d.month));
    }
  }

  /** `setUTCMonth` lands on the day that ECMA-262's MakeDay computes from the
      year, month and date of the rebuilt midnight. */
  lemma MoveMonthsIsMakeDay(d: CalendarDate, months: int)
    ensures DayNumber(MoveMonths(d, months)) == MakeDay(d.year, MonthIndexAfter(d, months), d.day)
  {
    var mo := MonthIndexAfter(d, months);
    var ty := d.year + mo / 12;
    var tm := mo % 12 + 1;
    MonthCarry(d.year, mo);
    var r := MoveMonths(d, months);
    if d.day > DaysInMonth(ty, tm) {
      DaysBeforeNextMonth(ty, tm);
      assert r == Date(ty, tm + 1, d.day - DaysInMonth(ty, tm));
    }
  }

  /** `addMonths` lands on MakeDay of the midnight `Date.UTC` rebuilt: the year
      is FullYear's, so years 0..99 move to 1900..1999. */
  lemma AddMonthsIsMakeDay(d: CalendarDate, months: int)
    ensures var u := UtcMidnight(d);
            DayNumber(AddMonths(d, months)) == MakeDay(FullYear(d.year), MonthIndexAfter(u, months), u.day)
  {
    UtcMidnightFields(d);
    MoveMonthsIsMakeDay(UtcMidnight(d), months);
  }

  /** From year 100 on (and before year 0) the rebuild changes nothing, so
      `addMonths` is `setUTCMonth` on the date itself. */
  lemma AddMonthsOutsideTwoDigitYears(d: CalendarDate, months: int)
    requires !(0 <= d.year <= 99)
    ensures AddMonths(d, months) == MoveMonths(d, months)
  {
  }

  /** No other valid date has that day number: MakeDay determines the result. */
  lemma AddMonthsUnique(d: CalendarDate, months: int, other: CalendarDate)
    requires var u := UtcMidnight(d);
             DayNumber(other) == MakeDay(FullYear(d.year), MonthIndexAfter(u, months), u.day)
    ensures other == AddMonths(d, months)
  {
    AddMonthsIsMakeDay(d, months);
    DayNumberInjective(other, AddMonths(d, months));
  }

  /** A day that exists in the target month is kept. */
  lemma AddMonthsKeepsExistingDay(d: CalendarDate, months: int)
    requires var t := FullYear(d.year) * 12 + (d.month - 1) + months;
             d.day <= DaysInMonth(FullYear(d.year), d.month) && d.day <= DaysInMonth(t / 12, t % 12 + 1)
    ensures AddMonths(d, months).day == d.day
    ensures AddMonths(d, months).year * 12 + AddMonths(d, months).month
            == FullYear(d.year) * 12 + d.month + months
  {
  }

  /** Moving MakeDay's month index on by one moves the day on by the length of
      the month it leaves. */
  lemma MakeDayNextMonth(year: int, month0: int, date: int)
    ensures MakeDay(year, month0 + 1, date)
            == MakeDay(year, month0, date) + DaysInMonth(year + month0 / 12, month0 % 12 + 1)
  {
    var ym := year + month0 / 12;
    var mn := month0 % 12;
    if mn < 11 {
      assert (month0 + 1) / 12 == month0 / 12 && (month0 + 1) % 12 == mn + 1;
      DaysBeforeNextMonth(ym, mn + 1);
    } else {
      assert (month0 + 1) / 12 == month0 / 12 + 1 && (month0 + 1) % 12 == 0;
      DaysBeforeNextMonth(ym, 12);
      DaysBeforeMonthYear(ym);
      DayFromYearStep(ym);
    }
  }

  lemma MakeDayIncreasing(year: int, a: int, b: int, date: int)
    requires a < b
    ensures MakeDay(year, a, date) < MakeDay(year, b, date)
  {
    var f := m => MakeDay(year, m, date);
    forall m ensures f(m) < f(m + 1) {
      MakeDayStepsForward(year, m, date);
    }
    StepwiseIncreasing(f, a, b);
  }

  /** A function that grows at every step grows over any stretch. */
  lemma {:induction false} StepwiseIncreasing(f: int -> int, a: int, b: int)
    requires forall m :: f(m) < f(m + 1)
    requires a < b
    ensures f(a) < f(b)
    decreases b - a
  {
    if a + 1 < b {
      StepwiseIncreasing(f, a + 1, b);
    }
  }

  lemma MakeDayStepsForward(year: int, month0: int, date: int)
    ensures MakeDay(year, month0, date) < MakeDay(year, month0 + 1, date)
  {
    MakeDayNextMonth(year, month0, date);
  }

  lemma OrderedByMakeDay(year: int, a: int, b: int, date: int, x: int, y: int)
    requires a < b && x == MakeDay(year, a, date) && y == MakeDay(year, b, date)
    ensures x < y
  {
    MakeDayIncreasing(year, a, b, date);
  }

  /** Later month offsets give strictly later dates, overflow included. */
  lemma AddMonthsIncreasing(d: CalendarDate, a: int, b: int)
    requires a < b
    ensures DayNumber(AddMonths(d, a)) < DayNumber(AddMonths(d, b))
  {
    var u := UtcMidnight(d);
    MoveMonthsIsMakeDay(u, a);
    MoveMonthsIsMakeDay(u, b);
    OrderedByMakeDay(u.year, MonthIndexAfter(u, a), MonthIndexAfter(u, b), u.day,
                     DayNumber(AddMonths(d, a)), DayNumber(AddMonths(d, b)));
  }

  lemma AddMonthsOverflowExamples()
    ensures AddMonths(Date(2023, 1, 31), 1) == Date(2023, 3, 3)
    ensures AddMonths(Date(2024, 1, 31), 1) == Date(2024, 3, 2)
    ensures AddMonths(Date(2024, 11, 30), 3) == Date(2025, 3, 2)
    ensures AddMonths(Date(2024, 12, 15), 1) == Date(2025, 1, 15)
  {
  }

  /** Two-digit years: `Date.UTC` reads year 50 as 1950, while year 100 is
      taken as it is. */
  lemma TwoDigitYearExamples()
    ensures AddMonths(Date(50, 1, 31), 1) == Date(1950, 3, 3)
    ensures AddMonths(Date(100, 1, 31), 1) == Date(100, 3, 3)
  {
    assert UtcMidnight(Date(50, 1, 31)) == Date(1950, 1, 31);
    assert UtcMidnight(Date(100, 1, 31)) == Date(100, 1, 31);
  }

  /** 29 February of year 0 becomes 1 March 1900 before the month moves, so a
      month later is 1 April, not 29 March. */
  lemma YearZeroLeapDayExamples()
    ensures AddMonths(Date(0, 1, 29), 1) == Date(1900, 3, 1)
    ensures AddMonths(Date(0, 2, 29), 1) == Date(1900, 4, 1)
  {
    assert UtcMidnight(Date(0, 1, 29)) == Date(1900, 1, 29);
    assert DaysInMonth(1900, 2) == 28;
    assert UtcMidnight(Date(0, 2, 29)) == Date(1900, 3, 1);
  }
}

=== FILE: digits.dfy ===
/** Decimal digit strings: the rendering of non-negative integers that the
    date printer and the fixed-point money printer share, and its parser. */
module Digits {

  predicate IsDigit(c: char) {
    '0' <= c <= '9'
  }

  predicate AllDigits(s: string) {
    forall i :: 0 <= i < |s| ==> IsDigit(s[i])
  }

  function DigitChar(d: nat): (c: char)
    requires d < 10
    ensures IsDigit(c)
  {
    (('0' as int) + d) as char
  }

  function DigitValue(c: char): nat
    requires IsDigit(c)
  {
    c as int - '0' as int
  }

  function Pow10(k: nat): nat {
    if k == 0 then 1 else 10 * Pow10(k - 1)
  }

  /** Shortest decimal rendering of `n` (no leading zeros, "0" for zero). */
  function Decimal(n: nat): (s: string)
    ensures 1 <= |s| && AllDigits(s)
    ensures |s| > 1 ==> s[0] != '0'
    decreases n
  {
    if n < 10 then [DigitChar(n)] else Decimal(n / 10) + [DigitChar(n % 10)]
  }

  /** Value of a digit string, most significant digit first. */
  function ParseDecimal(s: string): nat
    requires AllDigits(s)
  {
    if |s| == 0 then 0 else 10 * ParseDecimal(s[..|s| - 1]) + DigitValue(s[|s| - 1])
  }

  /** `n` rendered with at least `width` digits, padded on the left with '0'. */
  function ZeroPad(n: nat, width: nat): (s: string)
    ensures AllDigits(s)
    ensures |s| >= width
  {
    var d := Decimal(n);
    if |d| >= width then d else seq(width - |d|, _ => '0') + d
  }

  lemma {:induction false} ParseDecimalOfDecimal(n: nat)
    ensures ParseDecimal(Decimal(n)) == n
    decreases n
  {
    if n >= 10 {
      var s := Decimal(n);
      assert s[..|s| - 1] == Decimal(n / 10);
      ParseDecimalOfDecimal(n / 10);
    }
  }

  lemma {:induction false} ParseZeros(z: string)
    requires forall i :: 0 <= i < |z| ==> z[i] == '0'
    ensures AllDigits(z) && ParseDecimal(z) == 0
  {
    if |z| > 0 {
      ParseZeros(z[..|z| - 1]);
    }
  }

  lemma {:induction false} ParseIgnoresLeadingZeros(z: string, s: string)
    requires forall i :: 0 <= i < |z| ==> z[i] == '0'
    requires AllDigits(s)
    ensures AllDigits(z + s) && ParseDecimal(z + s) == ParseDecimal(s)
    decreases |s|
  {
    if |s| == 0 {
      assert z + s == z;
      ParseZeros(z);
    } else {
      assert (z + s)[..|z + s| - 1] == z + s[..|s| - 1];
      ParseIgnoresLeadingZeros(z, s[..|s| - 1]);
    }
  }

  /** Reading back a zero-padded rendering gives the number. */
  lemma ParseZeroPad(n: nat, width: nat)
    ensures ParseDecimal(ZeroPad(n, width)) == n
  {
    var d := Decimal(n);
    ParseDecimalOfDecimal(n);
    if |d| < width {
      ParseIgnoresLeadingZeros(seq(width - |d|, _ => '0'), d);
    }
  }

  lemma {:induction false} DecimalLength(n: nat, width: nat)
    requires 1 <= width && n < Pow10(width)
    ensures |Decimal(n)| <= width
    decreases n
  {
    if n >= 10 {
      assert n / 10 < Pow10(width - 1);
      DecimalLength(n / 10, width - 1);
    }
  }

  /** A number below 10^width pads to exactly `width` digits. */
  lemma ZeroPadLength(n: nat, width: nat)
    requires 1 <= width && n < Pow10(width)
    ensures |ZeroPad(n, width)| == width
  {
    DecimalLength(n, width);
  }
}

=== FILE: loan_accounts.dfy ===
/** The mock loan ledger: an account-number check, a store keyed by the
    upper-cased account number that seeds a record on first lookup, and a
    two-state DUE to PAID machine. The store is threaded through the
    operations as a value; the seed's due date (today plus five days) is a
    parameter because it depends on the clock. */
module LoanAccounts {
  import opened Wrappers
  import opened Money
  import opened LoanPaymentTypes

  type Ledger = map<string, LoanEmiDueSummary>

  datatype LedgerError =
    | InvalidAccountNumber
    | NoEmiDue(account: string)

  // ---------------------------------------------------------------------------
  // Account numbers

  predicate IsLower(c: char) {
    'a' <= c <= 'z'
  }

  /** `toUpperCase` on ASCII letters; every other character is left as it is. */
  function UpperChar(c: char): (u: char)
    ensures !IsLower(u)
    ensures !IsLower(c) ==> u == c
    ensures IsLower(c) ==> 'A' <= u <= 'Z' && u as int - 'A' as int == c as int - 'a' as int
  {
    if IsLower(c) then (c as int - 32) as char else c
  }

  function ToUpper(s: string): (u: string)
    ensures |u| == |s|
    ensures forall i :: 0 <= i < |s| ==> u[i] == UpperChar(s[i])
  {
    seq(|s|, i requires 0 <= i < |s| => UpperChar(s[i]))
  }

  /** A character of the class `[A-Z0-9-]`. */
  predicate AccountChar(c: char) {
    'A' <= c <= 'Z' || '0' <= c <= '9' || c == '-'
  }

  /** The pattern `^[A-Z0-9-]{8,20}$`. */
  predicate MatchesAccountPattern(s: string) {
    8 <= |s| <= 20 && forall i :: 0 <= i < |s| ==> AccountChar(s[i])
  }

  /** The account check of `getNextEmiDue`: non-empty, and the upper-cased text
      matches the pattern. */
  predicate ValidAccount(account: string) {
    account != "" && MatchesAccountPattern(ToUpper(account))
  }

  lemma ToUpperIdempotent(s: string)
    ensures ToUpper(ToUpper(s)) == ToUpper(s)
  {
  }

  /** Checking the account is blind to letter case. */
  lemma ValidAccountIgnoresCase(a: string, b: string)
    requires ToUpper(a) == ToUpper(b)
    ensures ValidAccount(a) <==> ValidAccount(b)
  {
    assert |a| == |b|;
  }

  /** The text `s.slice(-6)`: the last six characters, or all of a shorter text. */
  function LastSix(s: string): (r: string)
    ensures |r| == if |s| < 6 then |s| else 6
    ensures s == s[..|s| - |r|] + r
  {
    if |s| < 6 then s else s[|s| - 6..]
  }

  // ---------------------------------------------------------------------------
  // The seeded record

  /** `principalDue * 0.12` rounded by `Math.round` to cents. */
  function SeedInterest(principal: int): (r: real)
    ensures r == principal as real * 12.0 / 100.0
  {
    var scaled := principal as real * 0.12 * 100.0;
    assert scaled == (principal * 12) as real;
    var n := RoundHalfUp(scaled);
    assert n == principal * 12;
    n as real / 100.0
  }

  function SeedPrincipal(account: string): int
    requires |account| >= 2
  {
    500 + (account[1] as int) % 200
  }

  function SeedLateCharges(account: string): real {
    if |account| > 0 && account[|account| - 1] == 'X' then 15.0 else 0.0
  }

  /** The record `seedDueRecord` builds for an upper-cased, valid account: a
      whole-dollar principal of 500..699 derived from the second character,
      12% interest, a 15.00 late charge for an account ending in `X`, a total
      that is their exact sum, and twenty installments' principal remaining. */
  function Seed(account: string, dueDate: string): (s: LoanEmiDueSummary)
    requires |account| >= 2
    ensures s.loanAccountNumber == account && s.dueDate == dueDate && s.currency == "USD" && s.status == Due
    ensures s.customerId == "CUST-" + LastSix(account)
    ensures 1 <= s.installmentNumber <= 12
    ensures 500.0 <= s.principalDue <= 699.0 && s.principalDue == s.principalDue.Floor as real
    ensures s.interestDue == s.principalDue * 0.12 && IsCents(s.interestDue)
    ensures s.lateCharges == (if account[|account| - 1] == 'X' then 15.0 else 0.0)
    ensures s.totalDue == s.principalDue + s.interestDue + s.lateCharges && IsCents(s.totalDue)
    ensures s.remainingPrincipal == 20.0 * s.principalDue
  {
    var principal := SeedPrincipal(account);
    var interest := SeedInterest(principal);
    var late := SeedLateCharges(account);
    var total := RoundHalfUp((principal as real + interest + late) * 100.0) as real / 100.0;
    SeedTotalExact(principal, late);
    assert total == principal as real + interest + late && IsCents(total);
    LoanEmiDueSummary(
      account,
      "CUST-" + LastSix(account),
      (account[0] as int) % 12 + 1,
      dueDate,
      "USD",
      principal as real,
      interest,
      late,
      total,
      principal as real * 20.0,
      Due)
  }

  /** What a seeded record holds. The class `[A-Z0-9-]` narrows the principal
      to 545..590 (the codes of `-` and `Z`), inside the 500..699 the formula
      allows; the total is exactly principal plus interest plus late charges. */
  lemma SeedFacts(account: string, dueDate: string)
    requires MatchesAccountPattern(account)
    ensures var s := Seed(account, dueDate);
      && s.loanAccountNumber == account
      && 1 <= s.installmentNumber <= 12
      && 545.0 <= s.principalDue <= 590.0
      && s.principalDue == s.principalDue.Floor as real
      && IsCents(s.interestDue) && s.interestDue == s.principalDue * 0.12
      && (s.lateCharges == 15.0 <==> account[|account| - 1] == 'X')
      && (s.lateCharges == 0.0 <==> account[|account| - 1] != 'X')
      && s.totalDue == s.principalDue + s.interestDue + s.lateCharges
      && IsCents(s.totalDue)
      && s.remainingPrincipal == 20.0 * s.principalDue
      && s.customerId == "CUST-" + account[|account| - 6..] && |s.customerId| == 11
      && s.currency == "USD" && s.dueDate == dueDate && s.status == Due
  {
    SeedPrincipalRange(account);
    SeedTotalExact(SeedPrincipal(account), SeedLateCharges(account));
  }

  lemma SeedPrincipalRange(account: string)
    requires MatchesAccountPattern(account)
    ensures 545 <= SeedPrincipal(account) <= 590
  {
    assert AccountChar(account[1]);
  }

  /** Interest and total of a seed are whole cents and the total needs no rounding. */
  lemma SeedTotalExact(p: int, late: real)
    requires late == 15.0 || late == 0.0
    ensures IsCents(SeedInterest(p)) && SeedInterest(p) == p as real * 0.12
    ensures var sum := p as real + SeedInterest(p) + late;
      RoundHalfUp(sum * 100.0) as real / 100.0 == sum && IsCents(sum)
  {
    var i := SeedInterest(p);
    CentsOfInt(p * 12);
    assert i == (p * 12) as real / 100.0;
    var sum := p as real + i + late;
    var k := p * 100 + p * 12 + (if late == 15.0 then 1500 else 0);
    assert sum * 100.0 == k as real;
    assert RoundHalfUp(sum * 100.0) == k;
    CentsOfInt(k);
  }

  // ---------------------------------------------------------------------------
  // Ledger operations

  /** The store with the seed for `key` added unless a record is already there. */
  function SeedIfAbsent(store: Ledger, key: string, dueDate: string): (s: Ledger)
    requires |key| >= 2
    ensures key in s && s.Keys == store.Keys + {key}
    ensures forall k :: k in store ==> s[k] == store[k]
    ensures key !in store ==> s[key] == Seed(key, dueDate)
  {
    if key in store then store else store[key := Seed(key, dueDate)]
  }

  /** `getNextEmiDue`: reject a malformed account, seed the record under the
      upper-cased account on first sight, then fail if it is paid. The store
      is returned alongside because a lookup may seed it. */
  function GetNextEmiDue(store: Ledger, account: string, dueDate: string)
    : (out: (Ledger, Result<LoanEmiDueSummary, LedgerError>))
    ensures !ValidAccount(account) ==> out == (store, Failure(InvalidAccountNumber))
    ensures ValidAccount(account) ==>
      var key := ToUpper(account);
      && out.0 == SeedIfAbsent(store, key, dueDate)
      && (out.1.Success? <==> out.0[key].status != Paid)
      && (out.1.Success? ==> out.1.value == out.0[key])
      && (out.1.Failure? ==> out.1.error == NoEmiDue(key))
  {
    if !ValidAccount(account) then
      (store, Failure(InvalidAccountNumber))
    else
      var key := ToUpper(account);
      var seeded := SeedIfAbsent(store, key, dueDate);
      var summary := seeded[key];
      if summary.status == Paid then (seeded, Failure(NoEmiDue(key)))
      else (seeded, Success(summary))
  }

  /** `markInstallmentPaid`: mark the record of the upper-cased account as
      paid. There is no pattern check, and an unknown account changes nothing. */
  function MarkInstallmentPaid(store: Ledger, account: string): (s: Ledger)
    ensures s.Keys == store.Keys
    ensures forall k :: k in store && k != ToUpper(account) ==> s[k] == store[k]
    ensures ToUpper(account) in store ==> s[ToUpper(account)] == store[ToUpper(account)].(status := Paid)
  {
    var key := ToUpper(account);
    if key in store then store[key := store[key].(status := Paid)] else store
  }

  // ---------------------------------------------------------------------------
  // Properties

  /** Every stored record is the seed of its upper-cased, valid key, with status
      DUE or PAID: the ledger never produces OVERDUE. */
  predicate LedgerInv(store: Ledger) {
    forall k :: k in store ==> SeededRecord(k, store[k])
  }

  predicate SeededRecord(key: string, r: LoanEmiDueSummary) {
    && MatchesAccountPattern(key)
    && r.status != Overdue
    && r == Seed(key, r.dueDate).(status := r.status)
  }

  lemma UpperKeyValid(account: string)
    requires ValidAccount(account)
    ensures MatchesAccountPattern(ToUpper(account)) && ToUpper(ToUpper(account)) == ToUpper(account)
  {
    ToUpperIdempotent(account);
  }

  lemma GetNextEmiDueKeepsInv(store: Ledger, account: string, dueDate: string)
    requires LedgerInv(store)
    ensures LedgerInv(GetNextEmiDue(store, account, dueDate).0)
  {
    if ValidAccount(account) {
      var key := ToUpper(account);
      UpperKeyValid(account);
      var s := GetNextEmiDue(store, account, dueDate).0;
      forall k | k in s ensures SeededRecord(k, s[k]) {
        if k !in store {
          assert k == key && s[k] == Seed(key, dueDate);
        }
      }
    }
  }

  lemma MarkInstallmentPaidKeepsInv(store: Ledger, account: string)
    requires LedgerInv(store)
    ensures LedgerInv(MarkInstallmentPaid(store, account))
  {
  }

  /** Lookups are case-insensitive: two spellings of one account behave the same. */
  lemma LookupIgnoresCase(store: Ledger, a: string, b: string, dueDate: string)
    requires ToUpper(a) == ToUpper(b)
    ensures GetNextEmiDue(store, a, dueDate) == GetNextEmiDue(store, b, dueDate)
  {
    ValidAccountIgnoresCase(a, b);
  }

  /** Seeding happens once: a second lookup, on any later day, leaves the store
      as the first left it and gives the same answer. */
  lemma LookupIdempotent(store: Ledger, account: string, day1: string, day2: string)
    ensures var (s1, r1) := GetNextEmiDue(store, account, day1);
      GetNextEmiDue(s1, account, day2) == (s1, r1)
  {
  }

  /** Once an account is marked paid, lookups report that nothing is due. */
  lemma PaidMeansNoDue(store: Ledger, account: string, dueDate: string)
    requires ValidAccount(account) && ToUpper(account) in store
    ensures GetNextEmiDue(MarkInstallmentPaid(store, account), account, dueDate).1
         == Failure(NoEmiDue(ToUpper(account)))
  {
  }

  /** A fresh account is seeded as due, so marking it paid before its first
      lookup has no effect. */
  lemma MarkBeforeLookupIgnored(store: Ledger, account: string, dueDate: string)
    requires ValidAccount(account) && ToUpper(account) !in store
    ensures GetNextEmiDue(MarkInstallmentPaid(store, account), account, dueDate)
         == GetNextEmiDue(store, account, dueDate)
    ensures GetNextEmiDue(store, account, dueDate).1.Success?
  {
  }

  lemma MarkInstallmentPaidIdempotent(store: Ledger, account: string)
    ensures MarkInstallmentPaid(MarkInstallmentPaid(store, account), account) == MarkInstallmentPaid(store, account)
  {
  }
}

=== FILE: loan_emi_properties.dfy ===
/** What the amortization engine guarantees: the balance walk stays between zero
    and the principal and never rises, a zero rate splits the principal evenly,
    the annuity installment repays the loan exactly (in exact arithmetic), and
    the plan totals are sums of the rounded entries. */
module LoanEmiProperties {
  import opened Wrappers
  import opened Money
  import opened Calendar
  import opened LoanPaymentTypes
  import opened LoanEmiService

  lemma MulMonotone(a: real, b: real, c: real)
    requires 0.0 <= a <= b && c >= 0.0
    ensures a * c <= b * c
  {
  }

  lemma DivExact(a: real, d: real, c: real)
    requires d != 0.0 && a * d == c
    ensures a == c / d
  {
  }

  // ---------------------------------------------------------------------------
  // The balance walk

  /** One step from a balance within [0, principal] pays a principal within
      [0, balance] and leaves a balance within [0, balance]. */
  lemma StepBounds(balance: real, principal: real, rate: real, emi: real)
    requires 0.0 <= balance <= principal && rate >= 0.0 && emi >= principal * rate
    ensures 0.0 <= TakeStep(balance, rate, emi).principal <= balance
    ensures 0.0 <= TakeStep(balance, rate, emi).remaining <= balance
  {
    MulMonotone(balance, principal, rate);
    var s := TakeStep(balance, rate, emi);
    assert s.interest <= emi;
  }

  /** A non-negative loan and rate with an installment at least the interest on
      the whole principal. */
  predicate CoversInterest(principal: real, rate: real, emi: real) {
    principal >= 0.0 && rate >= 0.0 && emi >= principal * rate
  }

  /** With an installment that covers the interest on the whole principal, every
      step pays a non-negative principal no larger than the balance, and the
      balance stays in [0, principal] and never increases. */
  lemma {:induction false} BalanceBounds(principal: real, rate: real, emi: real, k: nat)
    requires CoversInterest(principal, rate, emi)
    ensures 0.0 <= RawStep(principal, rate, emi, k + 1).principal
            <= RemainingAfter(principal, rate, emi, k)
    ensures 0.0 <= RemainingAfter(principal, rate, emi, k + 1)
            <= RemainingAfter(principal, rate, emi, k) <= principal
  {
    if k > 0 {
      BalanceBounds(principal, rate, emi, k - 1);
    }
    StepBounds(RemainingAfter(principal, rate, emi, k), principal, rate, emi);
  }

  lemma {:induction false} BalanceAntitone(principal: real, rate: real, emi: real, j: nat, k: nat)
    requires CoversInterest(principal, rate, emi)
    requires j <= k
    ensures RemainingAfter(principal, rate, emi, k) <= RemainingAfter(principal, rate, emi, j)
    decreases k - j
  {
    if j < k {
      BalanceBounds(principal, rate, emi, k - 1);
      BalanceAntitone(principal, rate, emi, j, k - 1);
    }
  }

  /** Sum of the unrounded principal components of the first `k` installments. */
  function RawPrincipalPaid(principal: real, rate: real, emi: real, k: nat): real {
    if k == 0 then 0.0 else RawPrincipalPaid(principal, rate, emi, k - 1) + RawStep(principal, rate, emi, k).principal
  }

  /** The principal paid so far and the balance left always add up to the loan. */
  lemma {:induction false} PrincipalTelescopes(principal: real, rate: real, emi: real, k: nat)
    requires CoversInterest(principal, rate, emi)
    ensures RawPrincipalPaid(principal, rate, emi, k) + RemainingAfter(principal, rate, emi, k) == principal
  {
    if k > 0 {
      PrincipalTelescopes(principal, rate, emi, k - 1);
      BalanceBounds(principal, rate, emi, k - 1);
    }
  }

  // ---------------------------------------------------------------------------
  // Zero rate

  lemma ZeroRateArithmetic(principal: real, e: real, tenure: nat, k: nat)
    requires e > 0.0 && e * tenure as real == principal && 1 <= k <= tenure
    ensures principal - (k - 1) as real * e - e == principal - k as real * e
    ensures principal - k as real * e >= 0.0
  {
    MulMonotone(k as real, tenure as real, e);
  }

  lemma {:induction false} ZeroRateBalance(principal: real, e: real, tenure: nat, k: nat)
    requires e > 0.0 && e * tenure as real == principal && k <= tenure
    ensures RemainingAfter(principal, 0.0, e, k) == principal - k as real * e
  {
    if k > 0 {
      ZeroRateBalance(principal, e, tenure, k - 1);
      ZeroRateArithmetic(principal, e, tenure, k);
    }
  }

  /** A zero rate: every installment is `principal / tenure` with no interest,
      and the balance falls by that amount each month to exactly zero. */
  lemma ZeroRateSteps(principal: real, tenure: nat, i: nat)
    requires principal > 0.0 && tenure >= 1 && 1 <= i <= tenure
    ensures var e := CalculateEmi(principal, 0.0, tenure);
            && e == principal / tenure as real
            && RawStep(principal, 0.0, e, i).interest == 0.0
            && RawStep(principal, 0.0, e, i).principal == principal / tenure as real
            && RemainingAfter(principal, 0.0, e, tenure) == 0.0
  {
    var e := principal / tenure as real;
    assert CalculateEmi(principal, 0.0, tenure) == e;
    assert e * tenure as real == principal;
    assert e > 0.0;
    ZeroRateBalance(principal, e, tenure, i - 1);
    ZeroRateArithmetic(principal, e, tenure, i);
    ZeroRateBalance(principal, e, tenure, tenure);
  }

  // ---------------------------------------------------------------------------
  // Positive rate: the annuity balance

  lemma {:induction false} PowMonotone(q: real, j: nat, k: nat)
    requires q >= 1.0 && j <= k
    ensures 1.0 <= Pow(q, j) <= Pow(q, k)
    decreases k
  {
    if k > 0 {
      if j < k {
        PowMonotone(q, j, k - 1);
      } else {
        PowMonotone(q, j - 1, k - 1);
      }
      MulMonotone(1.0, q, Pow(q, k - 1));
    }
  }

  lemma NonNegativeFactor(a: real, d: real, c: real)
    requires d > 0.0 && c >= 0.0 && a * d == c
    ensures a >= 0.0
  {
  }

  /** One step of the annuity walk, stated on balances scaled by `d = x - 1`
      (with `x = q^tenure` and `qk = q^k`): if the balance satisfies
      `b * d == principal * (x - qk)`, the installment minus the interest does
      not exceed it and the next balance satisfies the same law for `q * qk`. */
  lemma ScaledAnnuityStep(principal: real, rate: real, x: real, qk: real, b: real, emi: real)
    requires principal > 0.0 && rate > 0.0 && x > 1.0 && (1.0 + rate) * qk <= x
    requires b * (x - 1.0) == principal * (x - qk)
    requires emi * (x - 1.0) == principal * rate * x
    ensures emi - b * rate <= b
    ensures (b - (emi - b * rate)) * (x - 1.0) == principal * (x - (1.0 + rate) * qk)
  {
    var d := x - 1.0;
    var next := (1.0 + rate) * qk;
    var lhs := b - (emi - b * rate);
    assert lhs * d == principal * (x - next) by {
      calc {
        lhs * d;
        b * d + (b * d) * rate - emi * d;
        principal * (x - qk) + principal * (x - qk) * rate - principal * rate * x;
        principal * (x - next);
      }
    }
    MulMonotone(0.0, principal, x - next);
    NonNegativeFactor(lhs, d, principal * (x - next));
  }

  /** A step whose installment minus interest does not exceed the balance pays
      exactly that difference as principal. */
  lemma CoveredStep(balance: real, rate: real, emi: real, next: real)
    requires rate != 0.0 && emi - balance * rate <= balance
    requires next == balance - (emi - balance * rate)
    ensures TakeStep(balance, rate, emi) == Step(balance * rate, emi - balance * rate, next)
  {
  }

  /** The annuity equation that `CalculateEmi` solves for a positive rate. */
  predicate SolvesAnnuity(principal: real, rate: real, tenure: nat, emi: real) {
    emi * (Pow(1.0 + rate, tenure) - 1.0) == principal * rate * Pow(1.0 + rate, tenure)
  }

  lemma PowFacts(rate: real, tenure: nat, k: nat)
    requires rate > 0.0 && 1 <= k <= tenure
    ensures Pow(1.0 + rate, tenure) > 1.0
    ensures Pow(1.0 + rate, k) == (1.0 + rate) * Pow(1.0 + rate, k - 1)
    ensures (1.0 + rate) * Pow(1.0 + rate, k - 1) <= Pow(1.0 + rate, tenure)
  {
    PowAtLeastOne(rate, tenure);
    PowMonotone(1.0 + rate, k, tenure);
  }

  /** The scaled annuity law `b * (x - 1) == principal * (x - qk)`: with
      `x = q^tenure` and `qk = q^k` it says `b` is the closed-form balance after
      `k` installments. */
  predicate ScaledLaw(b: real, principal: real, x: real, qk: real) {
    b * (x - 1.0) == principal * (x - qk)
  }

  /** `TakeStep` from a balance obeying the scaled annuity law pays exactly the
      EMI and leaves a balance obeying the law one power further. */
  lemma AnnuityTakeStep(principal: real, rate: real, x: real, qk: real, qk1: real, b: real, emi: real)
    requires principal > 0.0 && rate > 0.0 && x > 1.0 && qk1 == (1.0 + rate) * qk && qk1 <= x
    requires ScaledLaw(b, principal, x, qk)
    requires emi * (x - 1.0) == principal * rate * x
    ensures ScaledLaw(TakeStep(b, rate, emi).remaining, principal, x, qk1)
    ensures TakeStep(b, rate, emi).interest + TakeStep(b, rate, emi).principal == emi
  {
    ScaledAnnuityStep(principal, rate, x, qk, b, emi);
    CoveredStep(b, rate, emi, b - (emi - b * rate));
  }

  /** The closed-form annuity balance after `k` installments,
      `principal * (q^tenure - q^k) / (q^tenure - 1)` with `q = 1 + rate`,
      stated multiplied out. */
  predicate OnAnnuityPath(principal: real, rate: real, tenure: nat, emi: real, k: nat) {
    ScaledLaw(RemainingAfter(principal, rate, emi, k), principal, Pow(1.0 + rate, tenure), Pow(1.0 + rate, k))
  }

  /** The induction step of `AnnuityBalanceWalk`. */
  lemma AnnuityWalkStep(principal: real, rate: real, tenure: nat, emi: real, k: nat)
    requires principal > 0.0 && rate > 0.0 && 1 <= k <= tenure
    requires SolvesAnnuity(principal, rate, tenure, emi)
    requires OnAnnuityPath(principal, rate, tenure, emi, k - 1)
    ensures OnAnnuityPath(principal, rate, tenure, emi, k)
    ensures RawStep(principal, rate, emi, k).interest + RawStep(principal, rate, emi, k).principal == emi
  {
    var x := Pow(1.0 + rate, tenure);
    var b := RemainingAfter(principal, rate, emi, k - 1);
    assert emi * (x - 1.0) == principal * rate * x;
    PowFacts(rate, tenure, k);
    AnnuityTakeStep(principal, rate, x, Pow(1.0 + rate, k - 1), Pow(1.0 + rate, k), b, emi);
  }

  /** In exact arithmetic the walk follows the closed-form annuity balance and
      every installment pays exactly the EMI. */
  lemma {:induction false} AnnuityBalanceWalk(principal: real, rate: real, tenure: nat, emi: real, k: nat)
    requires principal > 0.0 && rate > 0.0 && tenure >= 1 && k <= tenure
    requires SolvesAnnuity(principal, rate, tenure, emi)
    ensures OnAnnuityPath(principal, rate, tenure, emi, k)
    ensures k >= 1 ==> RawStep(principal, rate, emi, k).interest + RawStep(principal, rate, emi, k).principal == emi
  {
    if k > 0 {
      AnnuityBalanceWalk(principal, rate, tenure, emi, k - 1);
      AnnuityWalkStep(principal, rate, tenure, emi, k);
    } else {
      assert Pow(1.0 + rate, 0) == 1.0;
    }
  }

  /** After the last annuity installment the balance is exactly zero. */
  lemma AnnuityPaysOff(principal: real, rate: real, tenure: nat, emi: real)
    requires principal > 0.0 && rate > 0.0 && tenure >= 1
    requires SolvesAnnuity(principal, rate, tenure, emi)
    ensures RemainingAfter(principal, rate, emi, tenure) == 0.0
  {
    AnnuityBalanceWalk(principal, rate, tenure, emi, tenure);
    assert OnAnnuityPath(principal, rate, tenure, emi, tenure);
    PowAtLeastOne(rate, tenure);
    var x := Pow(1.0 + rate, tenure);
    var b := RemainingAfter(principal, rate, emi, tenure);
    assert b * (x - 1.0) == 0.0;
    DivExact(b, x - 1.0, 0.0);
  }

  /** With exact arithmetic and any valid rate, every installment is exactly the
      EMI and the last one leaves a balance of exactly zero. */
  lemma ExactPayoff(principal: real, rate: real, tenure: nat, i: nat)
    requires principal > 0.0 && rate >= 0.0 && tenure >= 1 && 1 <= i <= tenure
    ensures var emi := CalculateEmi(principal, rate, tenure);
            && RawStep(principal, rate, emi, i).interest + RawStep(principal, rate, emi, i).principal == emi
            && RemainingAfter(principal, rate, emi, tenure) == 0.0
  {
    if rate == 0.0 {
      ZeroRateSteps(principal, tenure, i);
    } else {
      var emi := CalculateEmi(principal, rate, tenure);
      assert SolvesAnnuity(principal, rate, tenure, emi);
      AnnuityBalanceWalk(principal, rate, tenure, emi, i);
      AnnuityPaysOff(principal, rate, tenure, emi);
    }
  }
}

=== FILE: loan_emi_service.dfy ===
/** The amortization engine: validates loan terms, computes the level monthly
    installment (EMI) with the annuity formula, walks the installments, and
    totals the rounded schedule. */
module LoanEmiService {
  import opened Wrappers
  import opened Money
  import opened Calendar
  import opened LoanPaymentTypes

  /** The conditions `generatePlan` throws, in the order it checks them. */
  datatype PlanError =
    | PrincipalNotPositive
    | TenureNotPositive
    | NegativeRate
    | InvalidDate(input: string)

  /** The terms that pass the three numeric checks. */
  predicate ValidTerms(input: LoanEmiInput) {
    input.principalAmount > 0.0 && input.tenureMonths > 0 && input.annualInterestRate >= 0.0
  }

  /** Annual percentage rate to monthly fraction. */
  function MonthlyRate(annualRate: real): real {
    annualRate / 12.0 / 100.0
  }

  function Pow(b: real, n: nat): real {
    if n == 0 then 1.0 else b * Pow(b, n - 1)
  }

  lemma {:induction false} PowAtLeastOne(r: real, n: nat)
    requires r >= 0.0
    ensures Pow(1.0 + r, n) >= 1.0
    ensures r > 0.0 && n >= 1 ==> Pow(1.0 + r, n) > 1.0
  {
    if n > 0 {
      PowAtLeastOne(r, n - 1);
      var x := Pow(1.0 + r, n - 1);
      assert Pow(1.0 + r, n) == x + r * x;
      assert r * x >= 0.0;
      if r > 0.0 {
        assert r * x > 0.0;
      }
    }
  }

  /** The level installment. With a zero rate it spreads the principal evenly;
      otherwise it solves the annuity equation, which makes it exceed the first
      month's interest. */
  function CalculateEmi(principal: real, rate: real, tenure: int): (emi: real)
    requires tenure > 0 && rate >= 0.0
    ensures rate == 0.0 ==> emi * tenure as real == principal
    ensures rate > 0.0 ==>
      emi * (Pow(1.0 + rate, tenure) - 1.0) == principal * rate * Pow(1.0 + rate, tenure)
    ensures principal > 0.0 ==> emi > principal * rate
  {
    if rate == 0.0 then
      principal / tenure as real
    else
      var x := Pow(1.0 + rate, tenure);
      PowAtLeastOne(rate, tenure);
      var emi := principal * rate * x / (x - 1.0);
      assert emi * (x - 1.0) == principal * rate * x;
      AnnuityExceedsInterest(principal, rate, x, emi);
      emi
  }

  lemma PositiveProduct(a: real, b: real)
    requires a > 0.0 && b > 0.0
    ensures a * b > 0.0
  {
  }

  lemma PositiveFactor(a: real, b: real)
    requires b > 0.0 && a * b > 0.0
    ensures a > 0.0
  {
  }

  lemma AnnuityExceedsInterest(principal: real, rate: real, x: real, emi: real)
    requires rate > 0.0 && x > 1.0
    requires emi * (x - 1.0) == principal * rate * x
    ensures principal > 0.0 ==> emi > principal * rate
  {
    if principal > 0.0 {
      var a := emi - principal * rate;
      var b := x - 1.0;
      assert a * b == principal * rate;
      PositiveProduct(principal, rate);
      assert a * b > 0.0;
      PositiveFactor(a, b);
    }
  }

  function Min(a: real, b: real): real {
    if a <= b then a else b
  }

  function Max(a: real, b: real): real {
    if a >= b then a else b
  }

  /** One unrounded installment: its interest, its principal and the balance after it. */
  datatype Step = Step(interest: real, principal: real, remaining: real)

  /** One pass of the schedule loop from balance `balance`. The principal paid is
      capped by the balance and the new balance is clamped at zero. */
  function TakeStep(balance: real, rate: real, emi: real): (s: Step)
    ensures rate == 0.0 ==> s.interest == 0.0
    ensures s.principal <= balance
    ensures s.remaining >= 0.0
    ensures balance >= 0.0 && s.principal >= 0.0 ==> s.remaining == balance - s.principal
  {
    var interest := if rate == 0.0 then 0.0 else balance * rate;
    var principal := Min(emi - interest, balance);
    Step(interest, principal, Max(0.0, balance - principal))
  }

  /** The unrounded balance after `k` installments. */
  function RemainingAfter(principal: real, rate: real, emi: real, k: nat): real {
    if k == 0 then principal else TakeStep(RemainingAfter(principal, rate, emi, k - 1), rate, emi).remaining
  }

  /** The unrounded installment number `i` (1-based). */
  function RawStep(principal: real, rate: real, emi: real, i: nat): Step
    requires i >= 1
  {
    TakeStep(RemainingAfter(principal, rate, emi, i - 1), rate, emi)
  }

  /** Installment `i` falls due `grace + i` months after the anchor date. */
  function MonthsAfterAnchor(grace: int, i: int): int {
    grace + i
  }

  /** The published entry for installment `i`: its due date and rounded amounts. */
  function ScheduleEntry(principal: real, rate: real, emi: real, anchor: CalendarDate, grace: int, i: nat)
    : LoanEmiScheduleEntry
    requires i >= 1
  {
    var s := RawStep(principal, rate, emi, i);
    LoanEmiScheduleEntry(
      i,
      FormatIsoDate(AddMonths(anchor, MonthsAfterAnchor(grace, i))),
      Round2(s.principal),
      Round2(s.interest),
      Round2(s.remaining))
  }

  /** The schedule: one entry per month of the tenure, numbered from one. */
  function GenerateSchedule(principal: real, rate: real, tenure: nat, emi: real, anchor: CalendarDate, grace: int)
    : (schedule: seq<LoanEmiScheduleEntry>)
    ensures |schedule| == tenure && NumberedFromOne(schedule)
  {
    seq(tenure, i requires 0 <= i < tenure => ScheduleEntry(principal, rate, emi, anchor, grace, i + 1))
  }

  /** Entry `i` of the schedule, unfolded. */
  lemma ScheduleAt(principal: real, rate: real, tenure: nat, emi: real, anchor: CalendarDate, grace: int, i: int)
    requires 0 <= i < tenure
    ensures GenerateSchedule(principal, rate, tenure, emi, anchor, grace)[i]
            == ScheduleEntry(principal, rate, emi, anchor, grace, i + 1)
  {
  }

  /** Entry `i` (0-based) falls due `grace + i + 1` months after the anchor. */
  lemma ScheduleDueDates(principal: real, rate: real, tenure: nat, emi: real, anchor: CalendarDate, grace: int)
    ensures var schedule := GenerateSchedule(principal, rate, tenure, emi, anchor, grace);
            forall i :: 0 <= i < tenure ==>
              schedule[i].dueDate == FormatIsoDate(AddMonths(anchor, MonthsAfterAnchor(grace, i + 1)))
  {
  }

  /** The amounts of entry `i` are the rounded figures of the exact walk. */
  lemma ScheduleEntryAmounts(principal: real, rate: real, emi: real, anchor: CalendarDate, grace: int, i: nat)
    requires i >= 1
    ensures var e, s := ScheduleEntry(principal, rate, emi, anchor, grace, i), RawStep(principal, rate, emi, i);
            && e.remainingPrincipal == Round2(RemainingAfter(principal, rate, emi, i))
            && e.principalComponent == Round2(s.principal)
            && e.interestComponent == Round2(s.interest)
  {
    assert RawStep(principal, rate, emi, i).remaining == RemainingAfter(principal, rate, emi, i);
  }

  /** `generatePlan`: the checks in source order, then the schedule (whose date
      parse may still fail), then totals summed from the rounded entries. */
  function GeneratePlan(input: LoanEmiInput, parse: DateParser): (r: Result<LoanEmiPlan, PlanError>)
    ensures input.principalAmount <= 0.0 ==> r == Failure(PrincipalNotPositive)
    ensures input.principalAmount > 0.0 && input.tenureMonths <= 0 ==> r == Failure(TenureNotPositive)
    ensures input.principalAmount > 0.0 && input.tenureMonths > 0 && input.annualInterestRate < 0.0
            ==> r == Failure(NegativeRate)
    ensures ValidTerms(input) && parse(input.disbursementDate).None?
            ==> r == Failure(InvalidDate(input.disbursementDate))
    ensures r.Success? <==> ValidTerms(input) && parse(input.disbursementDate).Some?
    ensures r.Success? ==> |r.value.schedule| == input.tenureMonths && NumberedFromOne(r.value.schedule)
  {
    if input.principalAmount <= 0.0 then Failure(PrincipalNotPositive)
    else if input.tenureMonths <= 0 then Failure(TenureNotPositive)
    else if input.annualInterestRate < 0.0 then Failure(NegativeRate)
    else
      var rate := MonthlyRate(input.annualInterestRate);
      var emi := CalculateEmi(input.principalAmount, rate, input.tenureMonths);
      match parse(input.disbursementDate)
      case None => Failure(InvalidDate(input.disbursementDate))
      case Some(anchor) =>
        var schedule := GenerateSchedule(input.principalAmount, rate, input.tenureMonths, emi,
                                         anchor.date, GraceMonths(input));
        var total := ScheduleTotal(schedule);
        Success(LoanEmiPlan(
          Round2(emi),
          Round2(total - input.principalAmount),
          Round2(total),
          Round2(input.principalAmount),
          schedule))
  }
}

=== FILE: loan_payment_types.dfy ===
/** The records of the loan-payment pipeline: loan terms, schedule entries,
    repayment plans, the mandate context and the ledger's due summary. */
module LoanPaymentTypes {
  import opened Wrappers

  datatype LoanCustomerContext = LoanCustomerContext(
    customerId: string,
    fullName: Option<string>,
    email: Option<string>,
    phoneNumber: Option<string>)

  /** Loan terms; money is an exact real and the grace period is optional. */
  datatype LoanEmiInput = LoanEmiInput(
    principalAmount: real,
    annualInterestRate: real,
    tenureMonths: int,
    disbursementDate: string,
    gracePeriodMonths: Option<int>)

  datatype LoanEmiScheduleEntry = LoanEmiScheduleEntry(
    installmentNumber: int,
    dueDate: string,
    principalComponent: real,
    interestComponent: real,
    remainingPrincipal: real)

  /** Four money totals and the ordered schedule. */
  datatype LoanEmiPlan = LoanEmiPlan(
    emiAmount: real,
    totalInterest: real,
    totalRepayment: real,
    principalAmount: real,
    schedule: seq<LoanEmiScheduleEntry>)

  /** Everything the mandate assembler needs besides the plan; the anchor date is
      kept as raw text and only parsed when it is used. */
  datatype LoanPaymentMandateContext = LoanPaymentMandateContext(
    customer: LoanCustomerContext,
    merchantAgentId: string,
    merchantEndpoint: string,
    credentialProviderId: string,
    paymentMethodNetwork: string,
    repaymentCurrency: string,
    autopayAnchorDate: string)

  datatype LoanInstallmentStatus = Due | Overdue | Paid

  datatype LoanEmiDueSummary = LoanEmiDueSummary(
    loanAccountNumber: string,
    customerId: string,
    installmentNumber: int,
    dueDate: string,
    currency: string,
    principalDue: real,
    interestDue: real,
    lateCharges: real,
    totalDue: real,
    remainingPrincipal: real,
    status: LoanInstallmentStatus)

  /** The grace period the engine uses: the input's, or 0 when it is absent. */
  function GraceMonths(input: LoanEmiInput): (g: int)
    ensures input.gracePeriodMonths.None? ==> g == 0
    ensures input.gracePeriodMonths.Some? ==> g == input.gracePeriodMonths.value
  {
    input.gracePeriodMonths.GetOr(0)
  }

  /** Principal plus interest of one installment. */
  function InstallmentAmount(e: LoanEmiScheduleEntry): real {
    e.principalComponent + e.interestComponent
  }

  /** The left-to-right sum of `principalComponent + interestComponent`. */
  function ScheduleTotal(schedule: seq<LoanEmiScheduleEntry>): real {
    if |schedule| == 0 then 0.0
    else ScheduleTotal(schedule[..|schedule| - 1]) + InstallmentAmount(schedule[|schedule| - 1])
  }

  /** Sum of the principal components alone. */
  function PrincipalTotal(schedule: seq<LoanEmiScheduleEntry>): real {
    if |schedule| == 0 then 0.0
    else PrincipalTotal(schedule[..|schedule| - 1]) + schedule[|schedule| - 1].principalComponent
  }

  /** The bookkeeping identities a repayment plan is meant to satisfy: the total
      repayment is the schedule's sum and splits into interest plus principal. */
  predicate PlanBalanced(plan: LoanEmiPlan) {
    && plan.totalRepayment == ScheduleTotal(plan.schedule)
    && plan.totalRepayment == plan.totalInterest + plan.principalAmount
  }

  /** Installments are numbered 1, 2, ... in schedule order. */
  predicate NumberedFromOne(schedule: seq<LoanEmiScheduleEntry>) {
    forall i :: 0 <= i < |schedule| ==> schedule[i].installmentNumber == i + 1
  }
}

=== FILE: loan_plan_properties.dfy ===
/** What a generated repayment plan guarantees to its reader: due dates one
    month apart after the grace period, a published balance that never rises
    and ends at zero, installments within a cent of the EMI, and totals that
    agree with the schedule. */
module LoanPlanProperties {
  import opened Wrappers
  import opened Money
  import opened Calendar
  import opened LoanPaymentTypes
  import opened LoanEmiService
  import opened LoanEmiProperties

  /** The date part of the parsed disbursement date. */
  function Anchor(input: LoanEmiInput, parse: DateParser): CalendarDate
    requires parse(input.disbursementDate).Some?
  {
    parse(input.disbursementDate).value.date
  }

  /** The exact installment of valid terms. */
  function Emi(input: LoanEmiInput): real
    requires ValidTerms(input)
  {
    CalculateEmi(input.principalAmount, MonthlyRate(input.annualInterestRate), input.tenureMonths)
  }

  /** The due date of installment `i` (1-based). */
  function DueDate(input: LoanEmiInput, parse: DateParser, i: int): CalendarDate
    requires parse(input.disbursementDate).Some?
  {
    AddMonths(Anchor(input, parse), MonthsAfterAnchor(GraceMonths(input), i))
  }

  /** The schedule of valid terms anchored at the parsed date. */
  function Schedule(input: LoanEmiInput, parse: DateParser): seq<LoanEmiScheduleEntry>
    requires ValidTerms(input) && parse(input.disbursementDate).Some?
  {
    GenerateSchedule(input.principalAmount, MonthlyRate(input.annualInterestRate), input.tenureMonths,
                     Emi(input), Anchor(input, parse), GraceMonths(input))
  }

  /** The installment of valid terms covers the first month's interest. */
  lemma EmiCoversInterest(input: LoanEmiInput)
    requires ValidTerms(input)
    ensures MonthlyRate(input.annualInterestRate) >= 0.0
    ensures Emi(input) > input.principalAmount * MonthlyRate(input.annualInterestRate)
    ensures CoversInterest(input.principalAmount, MonthlyRate(input.annualInterestRate), Emi(input))
  {
  }

  /** A successful plan unpacked: the rounded figures of the installment walk. */
  lemma PlanParts(input: LoanEmiInput, parse: DateParser)
    requires GeneratePlan(input, parse).Success?
    ensures ValidTerms(input) && parse(input.disbursementDate).Some?
    ensures var total := ScheduleTotal(Schedule(input, parse));
            GeneratePlan(input, parse).value == LoanEmiPlan(
              Round2(Emi(input)), Round2(total - input.principalAmount), Round2(total),
              Round2(input.principalAmount), Schedule(input, parse))
  {
  }

  /** Entry `i` of a successful plan. */
  lemma PlanEntry(input: LoanEmiInput, parse: DateParser, i: int)
    requires GeneratePlan(input, parse).Success? && 0 <= i < input.tenureMonths
    ensures ValidTerms(input) && parse(input.disbursementDate).Some?
    ensures MonthlyRate(input.annualInterestRate) >= 0.0
    ensures |GeneratePlan(input, parse).value.schedule| == input.tenureMonths
    ensures GeneratePlan(input, parse).value.schedule[i]
            == ScheduleEntry(input.principalAmount, MonthlyRate(input.annualInterestRate), Emi(input),
                             Anchor(input, parse), GraceMonths(input), i + 1)
  {
    PlanParts(input, parse);
    ScheduleAt(input.principalAmount, MonthlyRate(input.annualInterestRate), input.tenureMonths, Emi(input),
               Anchor(input, parse), GraceMonths(input), i);
  }

  // ---------------------------------------------------------------------------
  // Due dates

  /** Installment `i` falls due `grace + i` months after the disbursement date,
      written as ISO text that reads back as that date. */
  lemma PlanDueDate(input: LoanEmiInput, parse: DateParser, i: int)
    requires ValidTerms(input) && parse(input.disbursementDate).Some? && 0 <= i < input.tenureMonths
    ensures Schedule(input, parse)[i].dueDate == FormatIsoDate(DueDate(input, parse, i + 1))
    ensures 0 <= DueDate(input, parse, i + 1).year <= 9999 ==>
              ParseIsoDate(Schedule(input, parse)[i].dueDate) == Some(DueDate(input, parse, i + 1))
  {
    var d := DueDate(input, parse, i + 1);
    if 0 <= d.year <= 9999 {
      IsoDateRoundTrip(d);
    }
  }

  /** Only the calendar date of the disbursement matters: `addMonths` drops the
      time of day, so two readings of the text that agree on the date give the
      same plan. */
  lemma PlanIgnoresTimeOfDay(input: LoanEmiInput, parse1: DateParser, parse2: DateParser)
    requires parse1(input.disbursementDate).Some? <==> parse2(input.disbursementDate).Some?
    requires parse1(input.disbursementDate).Some? ==>
               parse1(input.disbursementDate).value.date == parse2(input.disbursementDate).value.date
    ensures GeneratePlan(input, parse1) == GeneratePlan(input, parse2)
  {
    if ValidTerms(input) && parse1(input.disbursementDate).Some? {
      var rate := MonthlyRate(input.annualInterestRate);
      var emi := CalculateEmi(input.principalAmount, rate, input.tenureMonths);
      var schedule := GenerateSchedule(input.principalAmount, rate, input.tenureMonths, emi,
                                       parse1(input.disbursementDate).value.date, GraceMonths(input));
      var total := ScheduleTotal(schedule);
      var plan := LoanEmiPlan(Round2(emi), Round2(total - input.principalAmount), Round2(total),
                              Round2(input.principalAmount), schedule);
      assert GeneratePlan(input, parse1) == Success(plan);
      assert GeneratePlan(input, parse2) == Success(plan);
    }
  }

  /** Due dates strictly increase through the schedule. */
  lemma PlanDueDatesIncrease(input: LoanEmiInput, parse: DateParser, i: int, j: int)
    requires parse(input.disbursementDate).Some? && i < j
    ensures DayNumber(DueDate(input, parse, i)) < DayNumber(DueDate(input, parse, j))
  {
    AddMonthsIncreasing(Anchor(input, parse), MonthsAfterAnchor(GraceMonths(input), i),
                        MonthsAfterAnchor(GraceMonths(input), j));
  }

  // ---------------------------------------------------------------------------
  // The published balance

  /** Entry `m` (1-based) carries the rounded walk after `m` installments. */
  lemma EntryAmounts(input: LoanEmiInput, parse: DateParser, m: int)
    requires ValidTerms(input) && parse(input.disbursementDate).Some? && 1 <= m <= input.tenureMonths
    ensures var p, rate, emi := input.principalAmount, MonthlyRate(input.annualInterestRate), Emi(input);
            var e, s := Schedule(input, parse)[m - 1], RawStep(p, rate, emi, m);
            && e.remainingPrincipal == Round2(RemainingAfter(p, rate, emi, m))
            && e.principalComponent == Round2(s.principal)
            && e.interestComponent == Round2(s.interest)
  {
    var p, rate, emi := input.principalAmount, MonthlyRate(input.annualInterestRate), Emi(input);
    ScheduleAt(p, rate, input.tenureMonths, emi, Anchor(input, parse), GraceMonths(input), m - 1);
    ScheduleEntryAmounts(p, rate, emi, Anchor(input, parse), GraceMonths(input), m);
  }

  /** The published balance never rises from one installment to a later one and
      stays between zero and the rounded principal. */
  lemma ScheduleBalanceNonIncreasing(input: LoanEmiInput, parse: DateParser, m: int, n: int)
    requires ValidTerms(input) && parse(input.disbursementDate).Some?
    requires 1 <= m <= n <= input.tenureMonths
    ensures var s := Schedule(input, parse);
            0.0 <= s[n - 1].remainingPrincipal <= s[m - 1].remainingPrincipal <= Round2(input.principalAmount)
  {
    var p, rate, emi := input.principalAmount, MonthlyRate(input.annualInterestRate), Emi(input);
    EmiCoversInterest(input);
    EntryAmounts(input, parse, m);
    EntryAmounts(input, parse, n);
    BalanceAntitone(p, rate, emi, m, n);
    BalanceBounds(p, rate, emi, m);
    BalanceBounds(p, rate, emi, n);
    Round2Monotone(RemainingAfter(p, rate, emi, n), RemainingAfter(p, rate, emi, m));
    Round2Monotone(RemainingAfter(p, rate, emi, m), p);
  }

  /** Each installment repays a non-negative principal no larger than the
      balance the previous entry published (the rounded principal for the first). */
  lemma SchedulePrincipalWithinBalance(input: LoanEmiInput, parse: DateParser, k: int)
    requires ValidTerms(input) && parse(input.disbursementDate).Some?
    requires 0 <= k < input.tenureMonths
    ensures var s := Schedule(input, parse);
            && 0.0 <= s[k].principalComponent
            && (k == 0 ==> s[k].principalComponent <= Round2(input.principalAmount))
            && (k > 0 ==> s[k].principalComponent <= s[k - 1].remainingPrincipal)
  {
    var p, rate, emi := input.principalAmount, MonthlyRate(input.annualInterestRate), Emi(input);
    EmiCoversInterest(input);
    EntryAmounts(input, parse, k + 1);
    BalanceBounds(p, rate, emi, k);
    Round2Monotone(0.0, RawStep(p, rate, emi, k + 1).principal);
    Round2OfCents(0.0);
    Round2Monotone(RawStep(p, rate, emi, k + 1).principal, RemainingAfter(p, rate, emi, k));
    if k > 0 {
      EntryAmounts(input, parse, k);
    }
  }

  /** The last published balance is zero: the schedule repays the loan. */
  lemma SchedulePaysOff(input: LoanEmiInput, parse: DateParser)
    requires ValidTerms(input) && parse(input.disbursementDate).Some?
    ensures Schedule(input, parse)[input.tenureMonths - 1].remainingPrincipal == 0.0
  {
    var n := input.tenureMonths;
    EntryAmounts(input, parse, n);
    ExactPayoff(input.principalAmount, MonthlyRate(input.annualInterestRate), n, n);
    Round2OfCents(0.0);
  }

  // ---------------------------------------------------------------------------
  // Installments

  /** Every published installment (principal plus interest) is within a cent of
      the exact EMI, and the published EMI within half a cent of it. */
  lemma InstallmentsNearEmi(input: LoanEmiInput, parse: DateParser, k: int)
    requires ValidTerms(input) && parse(input.disbursementDate).Some?
    requires 0 <= k < input.tenureMonths
    ensures Abs(InstallmentAmount(Schedule(input, parse)[k]) - Emi(input)) <= 0.01
    ensures Abs(Round2(Emi(input)) - Emi(input)) <= 0.005
  {
    var p, rate, emi := input.principalAmount, MonthlyRate(input.annualInterestRate), Emi(input);
    EntryAmounts(input, parse, k + 1);
    ExactPayoff(p, rate, input.tenureMonths, k + 1);
  }

  /** With a zero interest rate every installment is interest-free and repays
      the same rounded share of the principal, which is also the published EMI. */
  lemma ZeroRateSchedule(input: LoanEmiInput, parse: DateParser, k: int)
    requires ValidTerms(input) && parse(input.disbursementDate).Some?
    requires input.annualInterestRate == 0.0 && 0 <= k < input.tenureMonths
    ensures Schedule(input, parse)[k].interestComponent == 0.0
    ensures Schedule(input, parse)[k].principalComponent
            == Round2(input.principalAmount / input.tenureMonths as real)
            == Round2(Emi(input))
  {
    var p, n := input.principalAmount, input.tenureMonths;
    assert MonthlyRate(input.annualInterestRate) == 0.0;
    EntryAmounts(input, parse, k + 1);
    ZeroRateSteps(p, n, k + 1);
    Round2OfCents(0.0);
  }

  // ---------------------------------------------------------------------------
  // Totals

  /** Every component of every entry is a whole number of cents. */
  predicate EntriesInCents(schedule: seq<LoanEmiScheduleEntry>) {
    forall i :: 0 <= i < |schedule| ==>
      IsCents(schedule[i].principalComponent) && IsCents(schedule[i].interestComponent)
  }

  /** Sums of whole cents are whole cents. */
  lemma {:induction false} ScheduleTotalInCents(schedule: seq<LoanEmiScheduleEntry>)
    requires EntriesInCents(schedule)
    ensures IsCents(ScheduleTotal(schedule))
    ensures IsCents(PrincipalTotal(schedule))
  {
    if |schedule| > 0 {
      var init := schedule[..|schedule| - 1];
      var last := schedule[|schedule| - 1];
      assert EntriesInCents(init);
      ScheduleTotalInCents(init);
      CentsClosed(last.principalComponent, last.interestComponent);
      CentsClosed(ScheduleTotal(init), InstallmentAmount(last));
      CentsClosed(PrincipalTotal(init), last.principalComponent);
    }
  }

  lemma ScheduleInCents(input: LoanEmiInput, parse: DateParser)
    requires ValidTerms(input) && parse(input.disbursementDate).Some?
    ensures EntriesInCents(Schedule(input, parse))
  {
  }

  /** The plan's totals agree with its schedule: the total repayment is exactly
      the sum of the published installments, and it splits into total interest
      plus principal up to a cent. */
  lemma PlanTotals(input: LoanEmiInput, parse: DateParser)
    requires GeneratePlan(input, parse).Success?
    ensures var plan := GeneratePlan(input, parse).value;
            && plan.totalRepayment == ScheduleTotal(plan.schedule)
            && Abs(plan.totalRepayment - plan.totalInterest - plan.principalAmount) <= 0.01
  {
    PlanParts(input, parse);
    var s := Schedule(input, parse);
    ScheduleInCents(input, parse);
    ScheduleTotalInCents(s);
    Round2OfCents(ScheduleTotal(s));
  }

  /** With a principal in whole cents the published totals balance exactly. */
  lemma PlanBalancedInCents(input: LoanEmiInput, parse: DateParser)
    requires GeneratePlan(input, parse).Success? && IsCents(input.principalAmount)
    ensures PlanBalanced(GeneratePlan(input, parse).value)
  {
    PlanParts(input, parse);
    var plan := GeneratePlan(input, parse).value;
    var s := Schedule(input, parse);
    assert plan.schedule == s;
    ScheduleInCents(input, parse);
    ScheduleTotalInCents(s);
    BalancedWhenCents(plan, input.principalAmount);
  }

  /** Totals rounded from a whole-cent schedule sum and principal balance. */
  lemma BalancedWhenCents(plan: LoanEmiPlan, principal: real)
    requires IsCents(ScheduleTotal(plan.schedule)) && IsCents(principal)
    requires plan.totalRepayment == Round2(ScheduleTotal(plan.schedule))
    requires plan.totalInterest == Round2(ScheduleTotal(plan.schedule) - principal)
    requires plan.principalAmount == Round2(principal)
    ensures PlanBalanced(plan)
  {
    var total := ScheduleTotal(plan.schedule);
    CentsClosed(total, principal);
    Round2OfCents(total);
    Round2OfCents(total - principal);
    Round2OfCents(principal);
  }

  /** `a` and `b` differ by at most `tol` per installment over `count` installments. */
  predicate CloseBy(a: real, b: real, count: int, tol: real) {
    Abs(a - b) <= Repeated(tol, count)
  }

  /** `count` payments of `amount`. */
  function Repeated(amount: real, count: int): real {
    count as real * amount
  }

  lemma RepeatedStep(amount: real, count: int)
    ensures Repeated(amount, count) == Repeated(amount, count - 1) + amount
  {
  }

  /** Installments each within `tol` of `emi` sum to within `tol` per
      installment of `count` times `emi`. */
  lemma {:induction false} TotalNearCount(schedule: seq<LoanEmiScheduleEntry>, count: int, emi: real, tol: real)
    requires count == |schedule|
    requires forall i :: 0 <= i < |schedule| ==> Abs(InstallmentAmount(schedule[i]) - emi) <= tol
    ensures CloseBy(ScheduleTotal(schedule), Repeated(emi, count), count, tol)
  {
    if |schedule| > 0 {
      var init := schedule[..|schedule| - 1];
      TotalNearCount(init, count - 1, emi, tol);
      RepeatedStep(emi, count);
      RepeatedStep(tol, count);
    }
  }

  /** The total repayment is the EMI times the tenure, up to a cent per installment. */
  lemma TotalNearTenureTimesEmi(input: LoanEmiInput, parse: DateParser)
    requires ValidTerms(input) && parse(input.disbursementDate).Some?
    ensures CloseBy(ScheduleTotal(Schedule(input, parse)), Repeated(Emi(input), input.tenureMonths),
                    input.tenureMonths, 0.01)
  {
    var s := Schedule(input, parse);
    forall k | 0 <= k < |s|
      ensures Abs(InstallmentAmount(s[k]) - Emi(input)) <= 0.01
    {
      InstallmentsNearEmi(input, parse, k);
    }
    TotalNearCount(s, input.tenureMonths, Emi(input), 0.01);
  }

  /** Principals each the rounded principal of the matching step of a walk sum
      to within half a cent per installment of what the walk repays. */
  lemma {:induction false} PrincipalsNearWalk(schedule: seq<LoanEmiScheduleEntry>, count: int,
                                              principal: real, rate: real, emi: real)
    requires count == |schedule|
    requires forall i :: 1 <= i <= |schedule| ==>
               schedule[i - 1].principalComponent == Round2(RawStep(principal, rate, emi, i).principal)
    ensures CloseBy(PrincipalTotal(schedule), RawPrincipalPaid(principal, rate, emi, count), count, 0.005)
  {
    if |schedule| > 0 {
      var init := schedule[..|schedule| - 1];
      var last := schedule[|schedule| - 1];
      assert last.principalComponent == Round2(RawStep(principal, rate, emi, count).principal);
      PrincipalsNearWalk(init, count - 1, principal, rate, emi);
      RepeatedStep(0.005, count);
    }
  }

  /** The published principals add up to the loan, up to half a cent per installment. */
  lemma PrincipalsNearLoan(input: LoanEmiInput, parse: DateParser)
    requires ValidTerms(input) && parse(input.disbursementDate).Some?
    ensures CloseBy(PrincipalTotal(Schedule(input, parse)), input.principalAmount, input.tenureMonths, 0.005)
  {
    var n := input.tenureMonths;
    var s := Schedule(input, parse);
    forall i | 1 <= i <= |s|
      ensures s[i - 1].principalComponent
              == Round2(RawStep(input.principalAmount, MonthlyRate(input.annualInterestRate), Emi(input), i).principal)
    {
      EntryAmounts(input, parse, i);
    }
    PrincipalsNearWalk(s, n, input.principalAmount, MonthlyRate(input.annualInterestRate), Emi(input));
    EmiCoversInterest(input);
    PrincipalTelescopes(input.principalAmount, MonthlyRate(input.annualInterestRate), Emi(input), n);
    ExactPayoff(input.principalAmount, MonthlyRate(input.annualInterestRate), n, n);
  }
}

=== FILE: money.dfy ===
/** Money as exact reals, with the two roundings the services use:
    `Number(x.toFixed(2))` (Round2) and `Math.round` (RoundHalfUp). */
module Money {
  import opened Wrappers
  import opened Digits

  /** A currency code paired with a numeric value. */
  datatype MonetaryAmount = MonetaryAmount(currency: string, value: real)

  function Abs(x: real): real {
    if x < 0.0 then -x else x
  }

  /** A value that is a whole number of cents. */
  predicate IsCents(x: real) {
    (100.0 * x).Floor as real == 100.0 * x
  }

  /** `Math.round`: the nearest integer, ties toward positive infinity. */
  function RoundHalfUp(x: real): (n: int)
    ensures x - 0.5 < n as real <= x + 0.5
  {
    (x + 0.5).Floor
  }

  /** `Number(x.toFixed(2))`: the nearest cent, ties away from zero. */
  function Round2(x: real): (r: real)
    ensures IsCents(r)
    ensures -0.005 <= r - x <= 0.005
    ensures x >= 0.0 ==> r >= 0.0
  {
    if x >= 0.0 then
      var n := RoundHalfUp(100.0 * x);
      CentsOfInt(n);
      n as real / 100.0
    else
      var n := RoundHalfUp(-100.0 * x);
      CentsOfInt(-n);
      assert -(n as real / 100.0) == (-n) as real / 100.0;
      -(n as real / 100.0)
  }

  lemma CentsOfInt(k: int)
    ensures IsCents(k as real / 100.0)
  {
    assert 100.0 * (k as real / 100.0) == k as real;
  }

  lemma CentsClosed(a: real, b: real)
    requires IsCents(a) && IsCents(b)
    ensures IsCents(a + b) && IsCents(a - b)
  {
    var i := (100.0 * a).Floor;
    var j := (100.0 * b).Floor;
    assert 100.0 * (a + b) == (i + j) as real;
    FloorOfInt(i + j);
    assert 100.0 * (a - b) == (i - j) as real;
    FloorOfInt(i - j);
  }

  lemma FloorOfInt(k: int)
    ensures (k as real).Floor == k
  {
  }

  /** Rounding leaves a whole number of cents unchanged. */
  lemma Round2OfCents(x: real)
    requires IsCents(x)
    ensures Round2(x) == x
  {
    var k := (100.0 * x).Floor;
    if x >= 0.0 {
      assert RoundHalfUp(100.0 * x) == k;
    } else {
      assert (-100.0 * x) == -(k as real);
      assert RoundHalfUp(-100.0 * x) == -k;
    }
  }

  lemma Round2Idempotent(x: real)
    ensures Round2(Round2(x)) == Round2(x)
  {
    Round2OfCents(Round2(x));
  }

  /** Rounding preserves order. */
  lemma Round2Monotone(x: real, y: real)
    requires x <= y
    ensures Round2(x) <= Round2(y)
  {
    if 0.0 <= x {
      assert (100.0 * x + 0.5).Floor <= (100.0 * y + 0.5).Floor;
    } else if y < 0.0 {
      assert (-100.0 * y + 0.5).Floor <= (-100.0 * x + 0.5).Floor;
    }
  }

  /** No whole number of cents lies strictly closer to `x` than `Round2(x)`. */
  lemma Round2IsNearestCent(x: real, c: real)
    requires IsCents(c)
    ensures Abs(Round2(x) - x) <= Abs(c - x)
  {
    var r := Round2(x);
    var m := (100.0 * r).Floor;
    var k := (100.0 * c).Floor;
    if k != m {
      assert 1.0 <= Abs(k as real - m as real);
      assert Abs(100.0 * r - 100.0 * x) <= 0.5;
    }
  }

  /** `x.toFixed(2)`: optional minus sign, integer digits, a point, two digits. */
  function FixedTwo(x: real): (s: string)
    ensures 4 <= |s|
  {
    if x >= 0.0 then UnsignedFixedTwo(x) else "-" + UnsignedFixedTwo(-x)
  }

  function UnsignedFixedTwo(x: real): (s: string)
    requires x >= 0.0
    ensures 4 <= |s| && IsDigit(s[0])
  {
    CentsText(RoundHalfUp(100.0 * x))
  }

  /** A whole number of cents written as units, a point and two digits. */
  function CentsText(n: nat): (s: string)
    ensures 4 <= |s| && IsDigit(s[0])
  {
    ZeroPad(n / 100, 1) + "." + ZeroPad(n % 100, 2)
  }

  /** `Number(s)` on strings of the `toFixed(2)` shape; `None` for any other shape. */
  function FixedValue(s: string): Option<real> {
    if 1 <= |s| && s[0] == '-' then
      match UnsignedFixedValue(s[1..])
      case Some(v) => Some(-v)
      case None => None
    else
      UnsignedFixedValue(s)
  }

  function UnsignedFixedValue(s: string): Option<real> {
    if 4 <= |s| && s[|s| - 3] == '.' && AllDigits(s[..|s| - 3]) && AllDigits(s[|s| - 2..]) then
      Some(ParseDecimal(s[..|s| - 3]) as real + ParseDecimal(s[|s| - 2..]) as real / 100.0)
    else
      None
  }

  lemma UnsignedFixedTwoValue(x: real)
    requires x >= 0.0
    ensures UnsignedFixedValue(UnsignedFixedTwo(x)) == Some(Round2(x))
  {
    var n := RoundHalfUp(100.0 * x);
    assert UnsignedFixedTwo(x) == CentsText(n);
    assert Round2(x) == n as real / 100.0;
    CentsTextValue(n);
  }

  /** Reading a cents text back gives its number of cents over a hundred. */
  lemma CentsTextValue(n: nat)
    ensures UnsignedFixedValue(CentsText(n)) == Some(n as real / 100.0)
  {
    var whole := ZeroPad(n / 100, 1);
    var frac := ZeroPad(n % 100, 2);
    ZeroPadLength(n % 100, 2);
    var s := whole + "." + frac;
    assert s[..|s| - 3] == whole;
    assert s[|s| - 2..] == frac;
    ParseZeroPad(n / 100, 1);
    ParseZeroPad(n % 100, 2);
    assert n == 100 * (n / 100) + n % 100;
    assert (n / 100) as real + (n % 100) as real / 100.0 == n as real / 100.0;
  }

  /** Reading the `toFixed(2)` text back as a number is exactly `Round2`. */
  lemma FixedTwoRoundTrip(x: real)
    ensures FixedValue(FixedTwo(x)) == Some(Round2(x))
  {
    if x >= 0.0 {
      UnsignedFixedTwoValue(x);
    } else {
      NegativeFixedTwoRoundTrip(x);
    }
  }

  lemma NegativeFixedTwoRoundTrip(x: real)
    requires x < 0.0
    ensures FixedValue(FixedTwo(x)) == Some(Round2(x))
  {
    var n := RoundHalfUp(-100.0 * x);
    assert -100.0 * x == 100.0 * -x;
    assert FixedTwo(x) == "-" + CentsText(n);
    CentsTextValue(n);
    SignedFixedValue(CentsText(n), n as real / 100.0);
  }

  /** A minus sign in front of an unsigned `toFixed(2)` text negates its value. */
  lemma SignedFixedValue(u: string, v: real)
    requires UnsignedFixedValue(u) == Some(v)
    ensures FixedValue("-" + u) == Some(-v)
  {
    assert ("-" + u)[1..] == u;
  }
}

=== FILE: pay_loan_emi_due.dfy ===
/** The `pay_ap2_loan_emi_due` tool: look up the live due record, turn it into
    a one-installment repayment plan and a mandate context, assemble the
    mandates and, when a transport endpoint is configured, submit them. */
module PayLoanEmiDue {
  import opened Wrappers
  import opened Money
  import opened Calendar
  import opened LoanPaymentTypes
  import opened Ap2Types
  import opened Ap2MandateService
  import opened LoanAccounts

  /** The tool's arguments after schema validation; optional ones are `Option`. */
  datatype DueRequest = DueRequest(
    loanAccountNumber: string,
    customerId: Option<string>,
    customerName: Option<string>,
    customerEmail: Option<string>,
    merchantAgentId: string,
    merchantEndpoint: string,
    credentialProviderId: string,
    paymentNetwork: string,
    autopayAnchorDate: Option<string>)

  /** Interest plus late charges, rounded to cents by `toFixed(2)`. */
  function InterestAndCharges(due: LoanEmiDueSummary): real {
    Round2(due.interestDue + due.lateCharges)
  }

  /** The degenerate plan: one installment that settles the whole due amount. */
  function PlanFromDue(due: LoanEmiDueSummary): (plan: LoanEmiPlan)
    ensures |plan.schedule| == 1
    ensures plan.emiAmount == plan.totalRepayment == due.totalDue
    ensures plan.principalAmount == plan.schedule[0].principalComponent == due.principalDue
    ensures plan.totalInterest == plan.schedule[0].interestComponent
    ensures IsCents(plan.totalInterest) && Abs(plan.totalInterest - (due.interestDue + due.lateCharges)) <= 0.005
    ensures plan.schedule[0].installmentNumber == due.installmentNumber
    ensures plan.schedule[0].dueDate == due.dueDate
    ensures plan.schedule[0].remainingPrincipal == due.remainingPrincipal
  {
    var interest := InterestAndCharges(due);
    LoanEmiPlan(
      due.totalDue,
      interest,
      due.totalDue,
      due.principalDue,
      [LoanEmiScheduleEntry(due.installmentNumber, due.dueDate, due.principalDue, interest, due.remainingPrincipal)])
  }

  /** The mandate context: the caller's customer id and anchor date when given,
      otherwise the due record's; the currency always comes from the record. */
  function ContextFromDue(req: DueRequest, due: LoanEmiDueSummary): (ctx: LoanPaymentMandateContext)
    ensures ctx.customer.customerId == req.customerId.GetOr(due.customerId)
    ensures ctx.autopayAnchorDate == req.autopayAnchorDate.GetOr(due.dueDate)
    ensures ctx.repaymentCurrency == due.currency
    ensures ctx.customer.fullName == req.customerName && ctx.customer.email == req.customerEmail
    ensures ctx.customer.phoneNumber.None?
    ensures ctx.merchantAgentId == req.merchantAgentId && ctx.merchantEndpoint == req.merchantEndpoint
    ensures ctx.credentialProviderId == req.credentialProviderId && ctx.paymentMethodNetwork == req.paymentNetwork
  {
    LoanPaymentMandateContext(
      LoanCustomerContext(req.customerId.GetOr(due.customerId), req.customerName, req.customerEmail, None),
      req.merchantAgentId,
      req.merchantEndpoint,
      req.credentialProviderId,
      req.paymentNetwork,
      due.currency,
      req.autopayAnchorDate.GetOr(due.dueDate))
  }

  /** The plan is balanced exactly when the record's total is its principal plus
      its rounded interest and charges. */
  lemma DuePlanBalancedIff(due: LoanEmiDueSummary)
    ensures PlanBalanced(PlanFromDue(due)) <==> due.totalDue == due.principalDue + InterestAndCharges(due)
  {
    var plan := PlanFromDue(due);
    assert plan.schedule[..0] == [];
    assert ScheduleTotal(plan.schedule) == due.principalDue + InterestAndCharges(due);
  }

  /** A record whose interest and charges are whole cents and whose total is
      their exact sum with the principal yields a balanced plan. */
  lemma ExactDueBalanced(due: LoanEmiDueSummary)
    requires IsCents(due.interestDue) && IsCents(due.lateCharges)
    requires due.totalDue == due.principalDue + due.interestDue + due.lateCharges
    ensures PlanBalanced(PlanFromDue(due))
  {
    CentsClosed(due.interestDue, due.lateCharges);
    Round2OfCents(due.interestDue + due.lateCharges);
    DuePlanBalancedIff(due);
  }

  /** A record seeded by the ledger always yields a balanced plan. */
  lemma SeededPlanBalanced(account: string, dueDate: string)
    requires MatchesAccountPattern(account)
    ensures PlanBalanced(PlanFromDue(Seed(account, dueDate)))
  {
    var s := Seed(account, dueDate);
    SeedTotalExact(SeedPrincipal(account), SeedLateCharges(account));
    assert IsCents(s.lateCharges);
    assert s.totalDue == s.principalDue + s.interestDue + s.lateCharges;
    ExactDueBalanced(s);
  }

  /** What the tool reports back. */
  datatype DueOutcome = DueOutcome(
    loanAccountNumber: string,
    dueDate: string,
    totalDue: real,
    currency: string,
    schedule: seq<LoanEmiScheduleEntry>,
    bundle: MandateBundle)

  datatype PayError =
    | LedgerFailed(ledger: LedgerError)
    | MandateFailed(mandate: MandateError)
    | SubmitFailed(submit: SubmitError)

  /** What the tool does once the lookup has found a due record: build the
      one-installment plan and the context, create the mandates, and submit
      them when an endpoint is configured. An unreadable anchor date fails
      before anything is submitted; a failed submission reports its error. */
  function Settle(req: DueRequest, due: LoanEmiDueSummary, ids: IdDraw, issuedAt: string, parse: DateParser,
                  config: TransportConfig, remote: SubmissionRequest -> RemoteResponse,
                  freshId: string, now: string): (r: Result<MandateBundle, PayError>)
    ensures var anchor := req.autopayAnchorDate.GetOr(due.dueDate);
      && (parse(anchor).None? ==> r == Failure(MandateFailed(InvalidAnchorDate(anchor))))
      && (parse(anchor).Some? ==>
            var created := Assemble(PlanFromDue(due), ContextFromDue(req, due), ids, issuedAt,
                                    parse(anchor).value.date.day);
            var submitted := Submit(created, config, remote, freshId, now);
            && (r.Success? <==> !Truthy(config.endpoint) || submitted.Success?)
            && (Truthy(config.endpoint) && submitted.Failure? ==> r == Failure(SubmitFailed(submitted.error))))
    ensures r.Success? ==>
      var b := r.value;
      var anchor := req.autopayAnchorDate.GetOr(due.dueDate);
      && Consistent(b)
      && b.paymentMandate.repaymentCount == 1
      && b.intentMandate.paymentConstraints.maxSingleDebit.value == due.totalDue
      && b.intentMandate.shoppingIntent.maxBudget.value == due.totalDue
      && b.paymentMandate.repaymentCurrency == due.currency
      && b.paymentMandate.repaymentAnchorDate == anchor
      && (b.submissionReceipt.Some? <==> Truthy(config.endpoint))
      && ContextOf(b) == Disclosed(ContextFromDue(req, due))
      && parse(anchor).Some? && b.paymentMandate.autopayDayOfMonth == parse(anchor).value.date.day
  {
    var plan := PlanFromDue(due);
    var ctx := ContextFromDue(req, due);
    match CreateMandates(plan, ctx, ids, issuedAt, parse)
    case Failure(e) => Failure(MandateFailed(e))
    case Success(created) =>
      var submitted := if Truthy(config.endpoint) then Submit(created, config, remote, freshId, now)
                       else Success(created);
      match submitted
      case Failure(e) => Failure(SubmitFailed(e))
      case Success(bundle) =>
        SubmitKeepsConsistent(created, config, remote, freshId, now);
        Success(bundle)
  }

  /** The tool's run, with the ledger state, the clock-derived seed date, the
      drawn identifiers, the date parser and the transport as parameters. It
      succeeds exactly when the lookup succeeds, the anchor date parses and,
      with an endpoint configured, the submission succeeds; each failure
      reports the step that failed. */
  function Execute(store: Ledger, req: DueRequest, seedDate: string, ids: IdDraw, issuedAt: string,
                   parse: DateParser, config: TransportConfig, remote: SubmissionRequest -> RemoteResponse,
                   freshId: string, now: string): (out: (Ledger, Result<DueOutcome, PayError>))
    ensures out.0 == GetNextEmiDue(store, req.loanAccountNumber, seedDate).0
    ensures GetNextEmiDue(store, req.loanAccountNumber, seedDate).1.Failure? ==>
      out.1 == Failure(LedgerFailed(GetNextEmiDue(store, req.loanAccountNumber, seedDate).1.error))
    ensures out.1.Success? ==>
      var due := GetNextEmiDue(store, req.loanAccountNumber, seedDate).1;
      var b := out.1.value.bundle;
      && due.Success?
      && out.1.value.loanAccountNumber == due.value.loanAccountNumber
      && out.1.value.dueDate == due.value.dueDate
      && out.1.value.totalDue == due.value.totalDue
      && out.1.value.currency == due.value.currency
      && out.1.value.schedule == PlanFromDue(due.value).schedule
      && Consistent(b)
      && b.paymentMandate.repaymentCount == 1
      && b.intentMandate.paymentConstraints.maxSingleDebit.value == due.value.totalDue
      && b.intentMandate.shoppingIntent.maxBudget.value == due.value.totalDue
      && b.paymentMandate.repaymentCurrency == due.value.currency
      && b.paymentMandate.repaymentAnchorDate == req.autopayAnchorDate.GetOr(due.value.dueDate)
      && (b.submissionReceipt.Some? <==> Truthy(config.endpoint))
      && ContextOf(b) == Disclosed(ContextFromDue(req, due.value))
      && var anchor := req.autopayAnchorDate.GetOr(due.value.dueDate);
         parse(anchor).Some? && b.paymentMandate.autopayDayOfMonth == parse(anchor).value.date.day
    ensures var due := GetNextEmiDue(store, req.loanAccountNumber, seedDate).1;
      due.Success? ==>
        var anchor := req.autopayAnchorDate.GetOr(due.value.dueDate);
        && (parse(anchor).None? ==> out.1 == Failure(MandateFailed(InvalidAnchorDate(anchor))))
        && (parse(anchor).Some? ==>
              var created := Assemble(PlanFromDue(due.value), ContextFromDue(req, due.value), ids, issuedAt,
                                      parse(anchor).value.date.day);
              var submitted := Submit(created, config, remote, freshId, now);
              && (out.1.Success? <==> !Truthy(config.endpoint) || submitted.Success?)
              && (Truthy(config.endpoint) && submitted.Failure? ==> out.1 == Failure(SubmitFailed(submitted.error))))
  {
    var (seeded, looked) := GetNextEmiDue(store, req.loanAccountNumber, seedDate);
    match looked
    case Failure(e) => (seeded, Failure(LedgerFailed(e)))
    case Success(due) =>
      match Settle(req, due, ids, issuedAt, parse, config, remote, freshId, now)
      case Failure(e) => (seeded, Failure(e))
      case Success(bundle) =>
        (seeded, Success(DueOutcome(due.loanAccountNumber, due.dueDate, due.totalDue, due.currency,
                                    PlanFromDue(due).schedule, bundle)))
  }
}

=== FILE: prompt_loader.dfy ===
/** The prompt helpers shared by the servers: keyed template lookup,
    single-pass `{{word}}` substitution, and `key: value` rendering of tool
    arguments. Loading and caching the YAML file is not part of this model; a
    loaded file is given as a map. */
module PromptLoader {
  import opened Wrappers

  datatype PromptTemplate = PromptTemplate(title: string, description: string, userMessage: string)

  /** The parsed prompt file; a key bound to `null` reads as `None`. */
  type PromptConfig = map<string, Option<PromptTemplate>>

  datatype PromptError = PromptNotFound(key: string)

  /** `getPrompt`: the stored template, or an error naming the key when it is
      missing or bound to nothing. */
  function GetPrompt(prompts: PromptConfig, key: string): (r: Result<PromptTemplate, PromptError>)
    ensures r.Success? <==> key in prompts && prompts[key].Some?
    ensures r.Success? ==> Some(r.value) == prompts[key]
    ensures r.Failure? ==> r.error == PromptNotFound(key)
  {
    if key in prompts && prompts[key].Some? then Success(prompts[key].value) else Failure(PromptNotFound(key))
  }

  // ---------------------------------------------------------------------------
  // Placeholders

  /** The class `\w`: ASCII letters, digits and underscore. */
  predicate WordChar(c: char) {
    'A' <= c <= 'Z' || 'a' <= c <= 'z' || '0' <= c <= '9' || c == '_'
  }

  predicate IsWord(s: string) {
    |s| >= 1 && forall i :: 0 <= i < |s| ==> WordChar(s[i])
  }

  /** The length of the longest run of word characters at the start of `s`. */
  function WordRun(s: string): (n: nat)
    ensures n <= |s|
    ensures forall i :: 0 <= i < n ==> WordChar(s[i])
    ensures n < |s| ==> !WordChar(s[n])
  {
    if |s| == 0 || !WordChar(s[0]) then 0 else 1 + WordRun(s[1..])
  }

  /** The length of the name when `t` starts with a match of `\{\{(\w+)\}\}`.
      The greedy `\w+` can only end where a non-word character follows, so the
      match exists exactly when the longest word run is followed by `}}`. */
  function PlaceholderAt(t: string): (r: Option<nat>)
    ensures r.Some? ==> r.value + 4 <= |t| && IsWord(t[2..r.value + 2])
                        && t[..r.value + 4] == "{{" + t[2..r.value + 2] + "}}"
  {
    if |t| >= 2 && t[0] == '{' && t[1] == '{' then
      var n := WordRun(t[2..]);
      if n >= 1 && n + 4 <= |t| && t[n + 2] == '}' && t[n + 3] == '}' then
        assert t[..n + 4] == "{{" + t[2..n + 2] + "}}";
        Some(n)
      else None
    else None
  }

  /** A template read left to right: literal characters and `{{name}}` slots. */
  datatype Piece = Literal(c: char) | Slot(name: string)

  /** The pieces of `t` as the global regular-expression scan finds them: a
      match is taken where one starts, otherwise one character is kept and the
      scan moves on. */
  function Tokenize(t: string): (ps: seq<Piece>)
    ensures SlotsNamedByWords(ps)
    decreases |t|
  {
    if |t| == 0 then []
    else match PlaceholderAt(t)
      case Some(n) => [Slot(t[2..n + 2])] + Tokenize(t[n + 4..])
      case None => [Literal(t[0])] + Tokenize(t[1..])
  }

  /** Every slot names a match of `\w+`. */
  predicate SlotsNamedByWords(ps: seq<Piece>) {
    forall i :: 0 <= i < |ps| && ps[i].Slot? ==> IsWord(ps[i].name)
  }

  function PieceText(p: Piece): string {
    match p
    case Literal(c) => [c]
    case Slot(name) => "{{" + name + "}}"
  }

  /** The template text the pieces spell. */
  function Untokenize(ps: seq<Piece>): string {
    if |ps| == 0 then "" else PieceText(ps[0]) + Untokenize(ps[1..])
  }

  /** Pieces that spell a template unambiguously: no literal `{` and every slot
      named by a word. */
  predicate Canonical(ps: seq<Piece>) {
    forall i :: 0 <= i < |ps| ==>
      match ps[i]
      case Literal(c) => c != '{'
      case Slot(name) => IsWord(name)
  }

  /** Every slot is replaced by `value(name)`, literals are kept. */
  function Substitute(ps: seq<Piece>, value: string -> string): string {
    if |ps| == 0 then ""
    else
      match ps[0]
      case Literal(c) => [c] + Substitute(ps[1..], value)
      case Slot(name) => value(name) + Substitute(ps[1..], value)
  }

  // ---------------------------------------------------------------------------
  // renderMessage

  /** The value of a variable: its own binding, or `''` when there is none. */
  function Lookup(vars: map<string, string>, key: string): string {
    if key in vars then vars[key] else ""
  }

  /** `renderMessage` with the lookup restricted to the record's own entries.
      A template without any `{{word}}` comes back as it is. */
  function Render(t: string, vars: map<string, string>): (r: string)
    ensures !HasPlaceholder(t) ==> r == t
  {
    var value := k => Lookup(vars, k);
    NoPlaceholderUnchanged(t, value);
    Substitute(Tokenize(t), value)
  }

  /** The members every plain JavaScript object inherits from
      `Object.prototype`, as `String()` prints them. */
  function InheritedMember(key: string): Option<string> {
    if key == "__proto__" then Some("[object Object]")
    else if key == "constructor" then Some(NativeFunctionText("Object"))
    else if key in {"hasOwnProperty", "isPrototypeOf", "propertyIsEnumerable", "toLocaleString", "toString",
                    "valueOf", "__defineGetter__", "__defineSetter__", "__lookupGetter__", "__lookupSetter__"}
    then Some(NativeFunctionText(key))
    else None
  }

  /** How `String()` prints a built-in function called `name`. */
  function NativeFunctionText(name: string): string {
    "function " + name + "() { [native code] }"
  }

  /** `variables[key] || ''` as JavaScript evaluates it: a key the record does
      not hold is looked up on `Object.prototype` too. */
  function LookupAsWritten(vars: map<string, string>, key: string): string {
    if key in vars then vars[key] else InheritedMember(key).GetOr("")
  }

  /** `renderMessage` exactly as written. It differs from Render only at a slot
      naming an `Object.prototype` member that the record does not hold. */
  function RenderAsWritten(t: string, vars: map<string, string>): (r: string)
    ensures !HasPlaceholder(t) ==> r == t
    ensures (forall i :: 0 <= i < |Tokenize(t)| && Tokenize(t)[i].Slot? ==>
               Tokenize(t)[i].name in vars || InheritedMember(Tokenize(t)[i].name).None?)
            ==> r == Render(t, vars)
  {
    var value := k => LookupAsWritten(vars, k);
    NoPlaceholderUnchanged(t, value);
    SubstituteAgrees(Tokenize(t), vars);
    Substitute(Tokenize(t), value)
  }

  // ---------------------------------------------------------------------------
  // Properties of the scan

  /** Reading a template into pieces loses nothing. */
  lemma {:induction false} TokenizeRoundTrip(t: string)
    ensures Untokenize(Tokenize(t)) == t
    decreases |t|
  {
    if |t| > 0 {
      match PlaceholderAt(t)
      case Some(n) =>
        TokenizeRoundTrip(t[n + 4..]);
        assert t == t[..n + 4] + t[n + 4..];
      case None =>
        TokenizeRoundTrip(t[1..]);
        assert t == [t[0]] + t[1..];
    }
  }

  lemma WordRunOfSlot(name: string, rest: string)
    requires IsWord(name)
    ensures WordRun(name + "}}" + rest) == |name|
    decreases |name|
  {
    if |name| > 1 {
      assert (name + "}}" + rest)[1..] == name[1..] + "}}" + rest;
      WordRunOfSlot(name[1..], rest);
    }
  }

  lemma TokenizeLiteral(c: char, rest: string)
    requires c != '{'
    ensures Tokenize([c] + rest) == [Literal(c)] + Tokenize(rest)
  {
    assert ([c] + rest)[1..] == rest;
  }

  lemma PlaceholderOfSlot(name: string, rest: string)
    requires IsWord(name)
    ensures PlaceholderAt("{{" + name + "}}" + rest) == Some(|name|)
  {
    var t := "{{" + name + "}}" + rest;
    assert t[2..] == name + "}}" + rest;
    WordRunOfSlot(name, rest);
    assert t[|name| + 2] == '}' && t[|name| + 3] == '}';
  }

  lemma TokenizeSlot(name: string, rest: string)
    requires IsWord(name)
    ensures Tokenize("{{" + name + "}}" + rest) == [Slot(name)] + Tokenize(rest)
  {
    var t := "{{" + name + "}}" + rest;
    var n := |name|;
    PlaceholderOfSlot(name, rest);
    TokenizeAtSlot(t, n);
    assert t[2..n + 2] == name;
    assert t[n + 4..] == rest;
  }

  lemma TokenizeAtSlot(t: string, n: nat)
    requires PlaceholderAt(t) == Some(n)
    ensures Tokenize(t) == [Slot(t[2..n + 2])] + Tokenize(t[n + 4..])
  {
  }

  /** Canonical pieces are read back from their text exactly. */
  lemma {:induction false} UntokenizeRoundTrip(ps: seq<Piece>)
    requires Canonical(ps)
    ensures Tokenize(Untokenize(ps)) == ps
  {
    if |ps| > 0 {
      var rest := Untokenize(ps[1..]);
      assert Canonical(ps[1..]) by {
        forall i | 0 <= i < |ps[1..]| ensures ps[1..][i] == ps[i + 1] { }
      }
      UntokenizeRoundTrip(ps[1..]);
      assert Untokenize(ps) == PieceText(ps[0]) + rest;
      match ps[0] {
        case Literal(c) =>
          TokenizeLiteral(c, rest);
        case Slot(name) =>
          TokenizeSlot(name, rest);
      }
      assert Tokenize(Untokenize(ps)) == [ps[0]] + ps[1..];
      assert ps == [ps[0]] + ps[1..];
    }
  }

  predicate HasPlaceholder(t: string) {
    exists i :: 0 <= i < |t| && PlaceholderAt(t[i..]).Some?
  }

  /** A template without any `{{word}}` is read as literals only, so no
      substitution changes it. */
  lemma {:induction false} NoPlaceholderUnchanged(t: string, value: string -> string)
    ensures !HasPlaceholder(t) ==> Substitute(Tokenize(t), value) == t
    decreases |t|
  {
    if |t| > 0 && !HasPlaceholder(t) {
      assert PlaceholderAt(t[0..]).None?;
      assert t[0..] == t;
      assert !HasPlaceholder(t[1..]) by {
        forall i | 0 <= i < |t[1..]| ensures PlaceholderAt(t[1..][i..]).None? {
          assert t[1..][i..] == t[i + 1..];
        }
      }
      NoPlaceholderUnchanged(t[1..], value);
      assert t == [t[0]] + t[1..];
    }
  }

  /** Rendering is one pass over the template's own pieces: each slot becomes
      its variable's value verbatim and the scan resumes after the slot, so a
      value is never scanned again. */
  lemma RenderSlot(name: string, rest: string, vars: map<string, string>)
    requires IsWord(name)
    ensures Render("{{" + name + "}}" + rest, vars) == Lookup(vars, name) + Render(rest, vars)
  {
    TokenizeSlot(name, rest);
  }

  /** A missing variable and one bound to the empty string both render as `''`. */
  lemma MissingRendersEmpty(name: string, vars: map<string, string>)
    requires IsWord(name) && (name !in vars || vars[name] == "")
    ensures Render("{{" + name + "}}", vars) == ""
  {
    RenderSlot(name, "", vars);
    assert Render("", vars) == "";
    assert "{{" + name + "}}" + "" == "{{" + name + "}}";
  }

  /** An inserted value that itself looks like a placeholder stays as it is. */
  lemma ValueNotRescanned()
    ensures Render("{{a}}", map["a" := "{{b}}", "b" := "x"]) == "{{b}}"
  {
    RenderSlot("a", "", map["a" := "{{b}}", "b" := "x"]);
    assert "{{a}}" == "{{" + "a" + "}}" + "";
  }

  /** Spaces inside the braces make no placeholder. */
  lemma SpacedNameIsText(vars: map<string, string>)
    ensures Render("{{ x }}", vars) == "{{ x }}"
  {
    var t := "{{ x }}";
    assert PlaceholderAt(t).None? by {
      assert t[2..][0] == ' ';
    }
    forall i | 1 <= i < |t| ensures PlaceholderAt(t[i..]).None? {
      assert t[i..][0] == t[i];
      assert i + 1 < |t| ==> t[i..][1] == t[i + 1];
    }
    assert t[0..] == t;
  }

  /** A hyphen is not a word character, so `{{a-b}}` is no placeholder. */
  lemma HyphenatedNameIsText(vars: map<string, string>)
    ensures Render("{{a-b}}", vars) == "{{a-b}}"
  {
    var t := "{{a-b}}";
    assert PlaceholderAt(t).None? by {
      assert t[2..][0] == 'a' && t[2..][1] == '-';
      assert t[2..][1..][0] == '-';
      assert WordRun(t[2..]) == 1;
    }
    forall i | 1 <= i < |t| ensures PlaceholderAt(t[i..]).None? {
      assert t[i..][0] == t[i];
      assert i + 1 < |t| ==> t[i..][1] == t[i + 1];
    }
    assert t[0..] == t;
  }

  // ---------------------------------------------------------------------------
  // The inherited-member lookup

  /** The two renderings differ only at slots that name an `Object.prototype`
      member the record does not hold. */
  lemma {:induction false} SubstituteAgrees(ps: seq<Piece>, vars: map<string, string>)
    ensures (forall i :: 0 <= i < |ps| && ps[i].Slot? ==> ps[i].name in vars || InheritedMember(ps[i].name).None?)
            ==> Substitute(ps, k => LookupAsWritten(vars, k)) == Substitute(ps, k => Lookup(vars, k))
  {
    if |ps| > 0 && forall i :: 0 <= i < |ps| && ps[i].Slot? ==> ps[i].name in vars || InheritedMember(ps[i].name).None? {
      assert forall i :: 0 <= i < |ps[1..]| ==> ps[1..][i] == ps[i + 1];
      SubstituteAgrees(ps[1..], vars);
    }
  }

  lemma RenderAsWrittenSlot(name: string, rest: string, vars: map<string, string>)
    requires IsWord(name)
    ensures RenderAsWritten("{{" + name + "}}" + rest, vars) == LookupAsWritten(vars, name) + RenderAsWritten(rest, vars)
  {
    TokenizeSlot(name, rest);
  }

  /** The template `{{constructor}}` with no variables renders as the text of
      JavaScript's `Object` function instead of `''`. */
  lemma InheritedMemberLeaks()
    ensures RenderAsWritten("{{constructor}}", map[]) == NativeFunctionText("Object")
    ensures Render("{{constructor}}", map[]) == ""
  {
    var name := "constructor";
    assert IsWord(name);
    assert "{{constructor}}" == "{{" + name + "}}" + "";
    RenderAsWrittenSlot(name, "", map[]);
    assert RenderAsWritten("", map[]) == "";
    assert |name| != |"__proto__"|;
    assert LookupAsWritten(map[], name) == NativeFunctionText("Object");
    MissingRendersEmpty(name, map[]);
    assert "{{constructor}}" == "{{" + name + "}}";
  }

  // ---------------------------------------------------------------------------
  // convertToKeyValueString

  /** One argument as `key: value`; a `null` or `undefined` value prints as `""`. */
  function Entry(key: string, value: Option<string>): string {
    key + ": " + value.GetOr("")
  }

  /** `convertToKeyValueString`: the entries in order, joined by `", "`. Values
      are given as the text `String()` makes of them. */
  function KeyValueString(entries: seq<(string, Option<string>)>): (s: string)
    ensures s == "" <==> |entries| == 0
    ensures |entries| == 1 ==> s == entries[0].0 + ": " + entries[0].1.GetOr("")
  {
    if |entries| == 0 then ""
    else if |entries| == 1 then Entry(entries[0].0, entries[0].1)
    else
      var last := entries[|entries| - 1];
      KeyValueString(entries[..|entries| - 1]) + ", " + Entry(last.0, last.1)
  }

  /** Joining is associative over concatenation of argument lists. */
  lemma {:induction false} KeyValueAppend(a: seq<(string, Option<string>)>, b: seq<(string, Option<string>)>)
    requires |a| >= 1 && |b| >= 1
    ensures KeyValueString(a + b) == KeyValueString(a) + ", " + KeyValueString(b)
    decreases |b|
  {
    var ab := a + b;
    assert ab[..|ab| - 1] == a + b[..|b| - 1];
    if |b| > 1 {
      KeyValueAppend(a, b[..|b| - 1]);
    } else {
      assert ab[..|ab| - 1] == a;
    }
  }
}

=== FILE: wrappers.dfy ===
/** Failure-compatible wrappers used for the model's optional values and error returns. */
module Wrappers {

  /** An optional value: `None` stands for a field that is `undefined` or `null`. */
  datatype Option<+T> = None | Some(value: T) {

    /** The value, or `default` when absent (the `??` operator of the source). */
    function GetOr(default: T): (r: T)
      ensures Some? ==> r == value
      ensures None? ==> r == default
    {
      match this
      case Some(v) => v
      case None => default
    }
  }

  /** Either a computed value or the error that the source throws instead. */
  datatype Result<+R, +E> = Success(value: R) | Failure(error: E) {

    predicate IsFailure() {
      Failure?
    }

    function PropagateFailure<U>(): Result<U, E>
      requires Failure?
    {
      Failure(error)
    }

    function Extract(): R
      requires Success?
    {
      value
    }
  }
}
